=== FILE: README.md ===
# Wireless-Password-Viewer, modelled in Dafny

Wireless-Password-Viewer is a pair of Windows scripts. Both ask the operating
system's network-configuration utility (`netsh wlan`) which Wi-Fi profiles are
stored. Then they ask it once per profile for the saved key in clear text.

- `winnetprof.py` gathers the answers into one fenced text message for a
  webhook. It puts a header of system facts above the answers.
- `netsh2.py` prints the same answers to the console, two lines per profile
  (three when its query fails).

This project models the shared core of both scripts:

- **Profile enumeration** (`list_wifi_profiles`): the utility's listing is split
  into lines. Each line that carries the `All User Profile` marker and a colon
  contributes the stripped text between its first colon and the next colon (or
  the end of the line), when that text is non-empty. A marker line without a
  colon is skipped.
- **Key retrieval** (`get_wifi_password`):
  - The profile name's double quotes are doubled in the query argument.
  - The query output is classified into one of five outcomes:
    - a key,
    - an empty key,
    - an open network,
    - an unreadable key,
    - a failed query.
  - Each script renders the outcome as its own text.
- **Report assembly** (`get_all_data`):
  - the webhook message of `winnetprof.py`,
  - the sequence of console lines of `netsh2.py`.

The Python string primitives the scripts rely on are modelled as Python defines
them, not simplified:

- `str.splitlines` knows all ten line terminators, treats `\r\n` as one break and
  adds no empty last line.
- `str.strip` removes all 29 characters that `str.isspace` accepts.
- `in` is tied by `Text.ContainsIff` to an occurrence of the marker at some
  position of the line.
- `split(':')[1]` and `split(':')[-1]` are tied to a model of `split(':')`
  (`Text.Split`), which `Text.JoinSplit` shows loses nothing.
- `replace('"', '""')` is tied to its inverse `Commands.Unescape`.

The external utility is a parameter: a `CommandOutput` is either the captured
text or the failure the call raised, and one function from argument lists to
`CommandOutput` answers both the listing command and the per-profile queries. The system facts of the webhook header
(timestamp, host name, user name, OS string) are a `SystemInfo` value.

Modules:

- `Text` (text.dfy): Python's string primitives.
- `Seqs` (seqs.dfy): list comprehension, filtering and concatenation over sequences.
- `Commands` (commands.dfy): the argument lists and quote escaping.
- `Profiles` (profiles.dfy): `list_wifi_profiles`.
- `Secrets` (secrets.dfy): `get_wifi_password` and the rendered texts.
- `Reports` (reports.dfy): both versions of `get_all_data`, with a worked example run.

Where the two scripts differ, `Secrets.Script` selects `Webhook` (winnetprof.py)
or `Console` (netsh2.py):

- An unreadable key renders as `Password cannot be retrieved` in winnetprof.py and
  as `Password cannot be retrieved - run as administrator` in netsh2.py.
- A failed query renders as `Access denied: <error text>` in winnetprof.py and as
  `Access denied - run as administrator` in netsh2.py.
- A failed query also makes netsh2.py print an error line before the profile's
  two records. So a profile contributes two or three console lines.

Three details of the code that the model keeps:

- The winnetprof.py texts for an unreadable key and a failed query carry no
  "run as administrator" advice. The failed-query text embeds the error.
- netsh2.py prints the extra error line for a failed query.
- A `Key Content` line without a colon yields the whole stripped line as the key,
  because `split(':')[-1]` of a colon-free line is the line itself.

## Model

| member | source | states |
|---|---|---|
| Commands.Escape | winnetprof.py:39 | escaping adds exactly one character per double quote in the name, and the escaped text holds twice as many quotes |
| Commands.UnescapeEscape | netsh2.py:37 | collapsing doubled quotes recovers the original profile name from its escaped form, so the escape loses nothing |
| Commands.EscapeInjective | winnetprof.py:39 | two different profile names never escape to the same text |
| Commands.EscapeKeepsOthers | netsh2.py:37 | escaping touches only the quotes: with quotes removed, name and escaped name are the same text |
| Commands.EscapeAppend | winnetprof.py:39 | escaping is per character, so it distributes over concatenation |
| Commands.NameArgument | winnetprof.py:40 | the `name=` argument is the five-character prefix plus the escaped name, one character longer per quote |
| Commands.ShowKeyCommand | netsh2.py:38 | the per-profile query has six arguments, the fifth being the escaped `name=` argument |
| Commands.ShowKeyCommandInjective | winnetprof.py:38-40 | two profiles are queried with identical arguments only when their names are equal |
| Commands.EscapeExample | netsh2.py:37-38 | a name with one quote is passed as `name=` with that quote doubled |
| Text.Contains | winnetprof.py:18 | Python's `in` on strings: a text contains only substrings no longer than itself; `Text.ContainsIff` fixes its meaning in both directions |
| Text.ContainsIff | winnetprof.py:18 | the substring test holds exactly when the marker occurs at some position of the line |
| Text.ContainsInfix | netsh2.py:14 | a line containing the marker anywhere in its middle satisfies the substring test |
| Text.Split | winnetprof.py:20 | `split(':')` gives one more piece than the line has colons, and no piece holds a colon |
| Text.JoinSplit | winnetprof.py:20 | splitting at colons and joining the pieces with colons gives back the line |
| Text.SplitAt | winnetprof.py:20 | a colon after colon-free text splits exactly that text off as the first piece |
| Text.SplitLinesJoinLines | winnetprof.py:17 | for lines free of line terminators, splitting the newline-joined text (with a final newline) gives back exactly those lines |
| Text.SplitLines | winnetprof.py:17 | `splitlines()` gives no more lines than characters, and no line holds any of the ten terminators |
| Text.SplitLinesCons | netsh2.py:13 | a terminator-free line followed by `\n` is split off as the first line, whatever follows |
| Text.SplitLinesBreak | winnetprof.py:17 | the same for every terminator: `\r\n` is one break, and so is a lone `\r` or any other single terminator |
| Text.Strip | winnetprof.py:20 | `strip()` leaves neither end whitespace and never lengthens the text |
| Text.StripPadded | winnetprof.py:20 | stripping whitespace padding around a stripped value gives back that value |
| Text.StripIdempotent | netsh2.py:16 | stripping an already stripped text changes nothing |
| Text.StripEmptyIff | winnetprof.py:21 | the stripped text is empty exactly when the text is all whitespace |
| Profiles.SecondField | winnetprof.py:20 | the second colon-separated field exists exactly when the line has a colon, and holds no colon |
| Profiles.SecondFieldIsSplit | winnetprof.py:20-24 | the second field equals `split(':')[1]`, and is absent exactly when that index would raise |
| Profiles.SecondFieldOf | netsh2.py:16 | the field between the first colon and the next colon (or the end of the line) is what `[1]` selects |
| Profiles.NameOf | winnetprof.py:18-22 | a line yields a name exactly when it carries the profile marker and a colon and its stripped second field is non-empty; the name is that stripped field |
| Profiles.NameOfLine | netsh2.py:14-18 | any marker line of the shape `label:<spaces>name<spaces>`, followed by nothing or by a further colon, yields exactly `name` |
| Profiles.ParseProfiles | winnetprof.py:17-24 | the scan over the lines returns only non-empty, stripped, colon-free names |
| Profiles.ParseProfilesNames | winnetprof.py:16-25 | there are no more names than lines carrying the marker, each name being non-empty and stripped |
| Profiles.ParseProfilesOrder | netsh2.py:13-18 | each line contributes its name, if any, at its position in the listing, so names keep the order of their lines |
| Profiles.ParseProfilesMembership | winnetprof.py:17-22 | a name is listed exactly when some line of the listing yields that name |
| Profiles.ColonlessLineSkipped | winnetprof.py:23-24 | a colon-free line contributes nothing, even if it carries the marker |
| Profiles.DuplicatesKept | netsh2.py:17-18 | two identical marker lines give the name twice; duplicates are not removed |
| Profiles.ListProfiles | winnetprof.py:14-28 | a failed listing gives no names; every enumerated name is non-empty, stripped and free of line breaks |
| Profiles.ListProfilesPrinted | netsh2.py:11-21 | the names enumerated from a printed listing are those of its lines, taken one by one |
| Profiles.NameFromUnbrokenLine | winnetprof.py:17-20 | a name enumerated from terminator-free lines holds no line terminator |
| Profiles.ListWifiProfiles | winnetprof.py:8-28 | running the listing command once and the line-by-line loop with its `IndexError` skip computes exactly the enumerated names, and hands back the listing so a caller can report its failure |
| Profiles.ListingLineName | netsh2.py:14-18 | a standard listing line `All User Profile     : <name>` yields the name back |
| Profiles.NameStopsAtColon | winnetprof.py:20 | a name is cut at its first colon: whatever follows a further colon is dropped |
| Profiles.ListProfilesTwoLines | netsh2.py:11-21 | a two-line listing enumerates its two names in order |
| Secrets.LastField | winnetprof.py:55 | the last colon-separated field holds no colon and is no longer than the line |
| Secrets.LastFieldIsSplit | netsh2.py:48 | the last field equals `split(':')[-1]` |
| Secrets.LastFieldStep | winnetprof.py:55 | past a first colon, the last field and the last piece of `split(':')` both carry over from the rest of the line |
| Secrets.LastFieldPastColon | winnetprof.py:55 | whatever precedes a colon has no influence on the last field |
| Secrets.LastFieldAfterColon | winnetprof.py:55 | the text after the final colon is the last field |
| Secrets.KeyOutcome | winnetprof.py:55-56 | a key line yields a key or an empty key; a yielded key is non-empty, stripped and colon-free |
| Secrets.KeyOutcomeOfLine | netsh2.py:48-49 | a key line whose last field is a padded value yields that value, or an empty key when the value is empty |
| Secrets.ClassifyLines | winnetprof.py:48-56 | classifying output lines never reports a failed query |
| Secrets.Resolve | netsh2.py:39-52 | the outcome is a failed query exactly when the command failed, and it carries the command's error text |
| Secrets.ResolveKeyContentLine | winnetprof.py:48-56 | output consisting of the line `Key Content : <value>` resolves to that value |
| Secrets.KeyCutAtLastColon | netsh2.py:48 | a key containing a colon is reported only from its last colon on |
| Secrets.ResolveAbsentSecurityLine | winnetprof.py:50-52 | output whose only relevant line is `Security key : Absent` resolves to an open network |
| Secrets.FirstIndexIsFirst | winnetprof.py:48 | the first line satisfying the filter heads the filtered list |
| Secrets.ClassifyFirstKeyLine | netsh2.py:41-49 | when key lines exist, the outcome comes from the first of them alone |
| Secrets.ClassifyWithoutKeyLine | winnetprof.py:49-53 | without key lines the outcome is open exactly when the first security line contains `Absent`, else unreadable |
| Secrets.UnmarkedLineIrrelevant | netsh2.py:41-46 | a line with neither marker has no influence on the outcome |
| Secrets.WifiPassword | winnetprof.py:58-59 | a failed query renders as `Access denied: ` plus the error (webhook) or as the fixed advice (console) |
| Secrets.ResolvePrinted | netsh2.py:39-41 | resolving printed output classifies exactly its lines |
| Secrets.WifiPasswordFirstKeyLine | winnetprof.py:48-56 | for any output text, when its lines include a key line, the reported text is the stripped last field of the first one, or the hidden-key text when that is empty |
| Secrets.WifiPasswordWithoutKeyLine | netsh2.py:42-46 | for any output text without key lines, the reported text is the open-network text exactly when the first security line says `Absent`, else the script's unreadable text |
| Secrets.InaccessibleMessage | winnetprof.py:53 | both scripts' unreadable-key texts start with `Password cannot be retrieved`; only netsh2.py (line 46) adds advice, so only the webhook text has 28 characters |
| Secrets.Render | netsh2.py:45-52 | a key renders as itself and every other outcome as one of the script's fixed messages; `Secrets.InterpretRender` reads it back |
| Secrets.MessagesDistinct | winnetprof.py:52-59 | the fixed texts of the four non-key outcomes differ from each other within each script |
| Secrets.InterpretRender | netsh2.py:45-52 | a rendered text read back gives the outcome it was rendered from, up to what the text shows, unless the key itself looks like one of the fixed texts: a netsh2.py failed query reads back as a failure without its error text, every other outcome exactly |
| Secrets.WebhookFailureUnambiguous | winnetprof.py:55-59 | no key line can render like a failed query in the webhook message, because a key never contains a colon |
| Secrets.SecretLikeMessage | netsh2.py:45-49 | a key spelled `Open network - no password` renders exactly like an open network, so the text alone cannot tell them apart |
| Reports.ResolveOne | winnetprof.py:103 | a profile's outcome is a failed query exactly when its own query fails |
| Reports.ResolveAll | winnetprof.py:102-103 | each enumerated profile gets one entry, in enumeration order, under its own name |
| Reports.ResolveAllAppend | netsh2.py:64-65 | resolving two lists of profiles one after the other is resolving their concatenation |
| Reports.ResolveAllIndependent | winnetprof.py:102-104 | a profile's outcome depends only on the answer to its own query |
| Reports.Header | winnetprof.py:87-95 | the header opens the fence and shows the timestamp right after `Timestamp: `, the host name right after `System: ` and the OS text right after `OS: `; it is 141 characters plus those three texts |
| Reports.ProfileBlock | winnetprof.py:104 | a block is `\nProfile: ` and the name, followed by `\nPassword: `, the webhook rendering of the outcome and a newline |
| Reports.WebhookMessage | winnetprof.py:87-106 | the message starts with the header and ends with the closing fence |
| Reports.WebhookMessageEmpty | winnetprof.py:98-106 | with no profiles, the message is the header, the line `No Wi-Fi profiles found.` and the closing fence |
| Reports.WebhookMessageBody | winnetprof.py:102-104 | the message is header, every profile block in order, and the fence; each block names the profile and its rendered password |
| Reports.EmptyMessageDistinct | winnetprof.py:99-104 | a message with profiles never equals the message for no profiles |
| Reports.AppendBlocks | winnetprof.py:102-104 | the loop appends exactly the blocks of all profiles, in order |
| Reports.BuildWebhookMessage | winnetprof.py:84-106 | with one function answering both the listing command and the per-profile queries, the assembled message is the header, the profile blocks or the no-profiles line, and the fence |
| Reports.HeaderOmitsUsername | winnetprof.py:87-95 | the message, for any list of profiles, does not depend on the user name gathered with the system facts |
| Reports.ListingErrorRecord | netsh2.py:23 | the listing-error line is its fixed 33-character preamble followed by the error text |
| Reports.QueryErrorRecord | netsh2.py:51 | the query-error line names the profile and ends with the error text |
| Reports.ProfileRecords | netsh2.py:64-67 | a profile prints two lines (its name, then its console-rendered password), preceded by the query-error line when its query failed |
| Reports.ConsoleRecords | netsh2.py:58-67 | the console output starts with the banner and has at least two lines |
| Reports.AllProfileRecordsCount | netsh2.py:50-52 | each profile prints two lines, plus one error line for each failed query |
| Reports.ConsoleRecordsOfProfile | netsh2.py:64-67 | each profile's lines appear in enumeration order, after those of all earlier profiles |
| Reports.ConsoleRecordsCount | netsh2.py:22-24 | the console output has one banner, the listing error when the listing failed, then either the no-profiles line or two lines per profile plus one per failed query |
| Reports.ConsoleRecordsNoProfiles | netsh2.py:58-62 | with no profiles the output is the banner, the listing error if the listing failed, and `No Wi-Fi profiles found.` |
| Reports.ConsoleRecordsListed | netsh2.py:64-67 | with profiles the output is the banner followed by every profile's lines |
| Reports.ScriptsAgree | netsh2.py:45-49 | the two scripts render keys, empty keys and open networks identically |
| Reports.PrintProfiles | netsh2.py:64-67 | the loop prints exactly the records of all profiles, in order |
| Reports.PrintAllData | netsh2.py:54-67 | with one function answering the listing command and the queries, the printed lines are the banner, the listing error if any, then the no-profiles line or every profile's records |
| Reports.ExampleRun | winnetprof.py:98-104 | for a sample listing of a secured and an open network, the profiles resolve to the key and to open |
| Reports.ExampleResolutions | winnetprof.py:103 | in the sample run, the secured profile resolves to its key and the open one to an open network |
| Reports.ExampleMessage | winnetprof.py:87-106 | the sample run's webhook message lists both profiles with their rendered passwords |
| Reports.ExampleConsole | netsh2.py:58-67 | the sample run prints the banner and two records per profile |

## Left out

- Running the utility (`subprocess.check_output`) is a parameter; the model sees only its text or its failure.
- Only `CalledProcessError` is modelled; `FileNotFoundError` and other exceptions propagate in the source and are not represented.
- The error text of a failed call (`str(e)`) is an opaque string carried from the failure.
- Decoding bytes to text under `text=True` is not modelled; characters are Unicode scalar values.
- `get_system_info` (clock, host name, user name, platform string) is a `SystemInfo` parameter; the timestamp's format is not modelled.
- The authentication-type lookup in winnetprof.py (lines 44-46) computes a value that is never used, so it has no observable effect and is not modelled.
- Sending the webhook message (`requests.post`, the status-code check and its prints) is not modelled; the model stops at the message text.
- The console prints of winnetprof.py (its banner, the listing-error print and the delivery report) are not modelled. For netsh2.py, every print is modelled as one line of a sequence: the banner, the listing-error print, the per-profile error print and the records.
- `main` and the command-line entry point are not modelled.
- The utility is a function of its argument list, so the same arguments always get the same answer. A profile name listed twice (netsh2.py:64-65) is therefore queried twice with the same result; a utility whose answer changes between two identical calls is not represented.

=== FILE: commands.dfy ===
/** The boundary to the OS network-configuration utility. Its invocation is not
    modelled: the scripts only ever see its text output or a failure, so that is
    what a `CommandOutput` carries. What is modelled is the argument list each
    script builds, including the doubling of `"` in a profile name. */
module Commands {
  import opened Text

  /** Result of one `check_output` call: the captured text, or the
      `CalledProcessError` it raised (non-zero exit) with its message. */
  datatype CommandOutput = Output(text: string) | Failed(detail: string)

  /** Argument list of the profile-listing query. */
  const ListCommand: seq<string> := ["netsh", "wlan", "show", "profiles"]

  /** `name.replace('"', '""')`: every double quote is doubled. */
  function Escape(name: string): (r: string)
    ensures |r| == |name| + Count(name, '"')
    ensures Count(r, '"') == 2 * Count(name, '"')
  {
    if |name| == 0 then []
    else (if name[0] == '"' then "\"\"" else [name[0]]) + Escape(name[1..])
  }

  /** Collapses each `""` back to `"`; the inverse of `Escape`. */
  function Unescape(s: string): string
    decreases |s|
  {
    if |s| == 0 then []
    else if |s| >= 2 && s[0] == '"' && s[1] == '"' then "\"" + Unescape(s[2..])
    else [s[0]] + Unescape(s[1..])
  }

  lemma {:induction false} UnescapeEscape(name: string)
    ensures Unescape(Escape(name)) == name
  {
    if |name| > 0 {
      UnescapeEscape(name[1..]);
      var e := Escape(name);
      if name[0] == '"' {
        assert e[2..] == Escape(name[1..]);
      } else {
        assert e[1..] == Escape(name[1..]);
      }
      assert name == [name[0]] + name[1..];
    }
  }

  /** Distinct names never collide once escaped. */
  lemma EscapeInjective(a: string, b: string)
    requires Escape(a) == Escape(b)
    ensures a == b
  {
    UnescapeEscape(a);
    UnescapeEscape(b);
  }

  /** Escaping changes nothing but the quotes: with the quotes removed, the name and
      its escaped form are the same text. */
  lemma {:induction false} EscapeKeepsOthers(name: string)
    ensures Without(Escape(name), '"') == Without(name, '"')
  {
    if |name| > 0 {
      EscapeKeepsOthers(name[1..]);
      var head := if name[0] == '"' then "\"\"" else [name[0]];
      WithoutAppend(head, Escape(name[1..]), '"');
    }
  }

  lemma {:induction false} WithoutAppend(a: string, b: string, c: char)
    ensures Without(a + b, c) == Without(a, c) + Without(b, c)
  {
    if |a| == 0 {
      assert a + b == b;
    } else {
      assert (a + b)[1..] == a[1..] + b;
      WithoutAppend(a[1..], b, c);
    }
  }

  /** Escaping works character by character, so it distributes over concatenation. */
  lemma {:induction false} EscapeAppend(a: string, b: string)
    ensures Escape(a + b) == Escape(a) + Escape(b)
  {
    if |a| == 0 {
      assert a + b == b;
    } else {
      assert (a + b)[1..] == a[1..] + b;
      EscapeAppend(a[1..], b);
    }
  }

  /** The `name=` argument handed to the per-profile query. */
  function NameArgument(name: string): (arg: string)
    ensures |arg| == 5 + |name| + Count(name, '"')
  {
    "name=" + Escape(name)
  }

  /** Argument list of the per-profile query that reveals the stored key. */
  function ShowKeyCommand(name: string): (argv: seq<string>)
    ensures |argv| == 6 && argv[4] == NameArgument(name)
  {
    ["netsh", "wlan", "show", "profile", NameArgument(name), "key=clear"]
  }

  /** Two profiles are queried with the same arguments only if their names are equal. */
  lemma ShowKeyCommandInjective(a: string, b: string)
    requires ShowKeyCommand(a) == ShowKeyCommand(b)
    ensures a == b
  {
    assert NameArgument(a)[5..] == Escape(a);
    assert NameArgument(b)[5..] == Escape(b);
    EscapeInjective(a, b);
  }

  /** A name holding one quote is passed with that quote doubled. */
  lemma EscapeExample()
    ensures NameArgument("My\"Net") == "name=My\"\"Net"
  {
    EscapeAppend("My", "\"Net");
    EscapeAppend("\"", "Net");
  }
}

=== FILE: profiles.dfy ===
/** Profile enumeration (`list_wifi_profiles`, identical in winnetprof.py and
    netsh2.py): the lines of the listing that mention "All User Profile" each
    contribute the text between their first and second colon, trimmed, unless that
    text is empty or the line has no colon at all. */
module Profiles {
  import opened Text
  import opened Commands
  import opened Seqs

  const ProfileMarker := "All User Profile"

  /** What a returned profile name always looks like. */
  predicate IsProfileName(name: string) {
    name != [] && IsStripped(name) && ':' !in name
  }

  /** `line.split(":")[1]`; `None` stands for the `IndexError` raised when the line
      has no colon. */
  function SecondField(line: string): (r: Option<string>)
    ensures r.Some? <==> ':' in line
    ensures r.Some? ==> ':' !in r.value
  {
    var i := IndexOf(line, ':');
    if i == |line| then None
    else
      var tail := line[i + 1..];
      Some(tail[..IndexOf(tail, ':')])
  }

  /** The field runs from just after the first colon up to the next colon or the end
      of the line. */
  lemma SecondFieldSpan(line: string) returns (start: nat, stop: nat)
    requires ':' in line
    ensures start == IndexOf(line, ':') + 1 && start <= stop <= |line|
    ensures SecondField(line) == Some(line[start..stop])
    ensures stop == |line| || line[stop] == ':'
  {
    var i := IndexOf(line, ':');
    var tail := line[i + 1..];
    var j := IndexOf(tail, ':');
    start, stop := i + 1, i + 1 + j;
    assert tail[..j] == line[start..stop];
    if j < |tail| {
      assert line[stop] == tail[j];
    }
  }

  /** `SecondField` is the second piece of Python's `split(":")`, when there is one. */
  lemma SecondFieldIsSplit(line: string)
    ensures SecondField(line) == if |Split(line, ':')| >= 2 then Some(Split(line, ':')[1]) else None
  {
    var i := IndexOf(line, ':');
    if i < |line| {
      var tail := line[i + 1..];
      assert Split(line, ':') == [line[..i]] + Split(tail, ':');
      SplitHead(tail, ':');
    } else {
      CountAbsent(line, ':');
    }
  }

  /** The second field of `prefix:field` followed by nothing or by another colon. */
  lemma SecondFieldOf(prefix: string, field: string, suffix: string)
    requires ':' !in prefix && ':' !in field && (suffix == [] || suffix[0] == ':')
    ensures SecondField(prefix + ":" + field + suffix) == Some(field)
  {
    var line := prefix + ":" + field + suffix;
    assert line == prefix + (":" + field + suffix);
    IndexOfAfter(prefix, ":" + field + suffix, ':');
    var tail := line[|prefix| + 1..];
    assert tail == field + suffix;
    IndexOfAfter(field, suffix, ':');
    assert tail[..|field|] == field;
  }

  /** The name one listing line contributes, if any. */
  function NameOf(line: string): (r: Option<string>)
    ensures r.Some? ==> Contains(line, ProfileMarker) && ':' in line && IsProfileName(r.value)
    ensures r.Some? ==> r.value == Strip(SecondField(line).value)
    ensures Contains(line, ProfileMarker) && ':' in line && Strip(SecondField(line).value) != [] ==> r.Some?
  {
    if !Contains(line, ProfileMarker) then None
    else match SecondField(line)
      case None => None
      case Some(field) =>
        var name := Strip(field);
        if name == [] then None
        else
          assert ':' !in name by {
            if ':' in name { StripSubset(field, ':'); }
          }
          Some(name)
  }

  /** Any marker line of the shape `head:<padding>name<padding>`, followed by nothing
      or by a further colon, yields exactly `name`. */
  lemma NameOfLine(head: string, a: string, name: string, b: string, suffix: string)
    requires Contains(head, ProfileMarker) && ':' !in head
    requires AllSpace(a) && AllSpace(b) && ':' !in a + b && IsProfileName(name)
    requires suffix == [] || suffix[0] == ':'
    ensures NameOf(head + ":" + (a + name + b) + suffix) == Some(name)
  {
    var field := a + name + b;
    var line := head + ":" + field + suffix;
    assert ':' !in a && ':' !in b by {
      assert forall c :: c in a ==> c in a + b;
      assert forall c :: c in b ==> c in a + b;
    }
    assert ':' !in field;
    ContainsExtended(head, ":", ProfileMarker);
    ContainsExtended(head + ":", field, ProfileMarker);
    ContainsExtended(head + ":" + field, suffix, ProfileMarker);
    SecondFieldOf(head, field, suffix);
    StripPadded(a, name, b);
  }

  predicate IsMarkerLine(line: string) {
    Contains(line, ProfileMarker)
  }

  /** The scanning loop of `list_wifi_profiles` over already split lines. */
  function ParseProfiles(lines: seq<string>): (names: seq<string>)
    ensures forall k :: 0 <= k < |names| ==> IsProfileName(names[k])
  {
    var names := Collect(lines, NameOf);
    forall k | 0 <= k < |names| ensures IsProfileName(names[k]) {
      var i := CollectSource(lines, NameOf, names[k]);
    }
    names
  }

  /** Only marker lines contribute, each at most one name, and every name is
      non-empty, trimmed and free of colons. */
  lemma ParseProfilesNames(lines: seq<string>)
    ensures |ParseProfiles(lines)| <= |Filter(lines, IsMarkerLine)|
    ensures forall k :: 0 <= k < |ParseProfiles(lines)| ==> IsProfileName(ParseProfiles(lines)[k])
  {
    CollectBound(lines, NameOf, IsMarkerLine);
  }

  /** Names come out in the order of their lines: whatever precedes a line contributes
      its names before that line's name, whatever follows contributes after it. The
      same name on several lines is returned once per line. */
  lemma ParseProfilesOrder(before: seq<string>, line: string, after: seq<string>)
    ensures ParseProfiles(before + [line] + after)
            == ParseProfiles(before) + Emit(NameOf(line)) + ParseProfiles(after)
  {
    CollectAppend(before + [line], after, NameOf);
    CollectAppend(before, [line], NameOf);
    ParseProfilesSingle(line);
  }

  /** A name is returned exactly when some line yields it. */
  lemma ParseProfilesMembership(lines: seq<string>, name: string)
    ensures name in ParseProfiles(lines) <==> exists i :: 0 <= i < |lines| && NameOf(lines[i]) == Some(name)
  {
    if name in ParseProfiles(lines) {
      var i := CollectSource(lines, NameOf, name);
    }
    if exists i :: 0 <= i < |lines| && NameOf(lines[i]) == Some(name) {
      var i :| 0 <= i < |lines| && NameOf(lines[i]) == Some(name);
      CollectHit(lines, NameOf, i);
    }
  }

  /** A marker line without a colon is skipped and does not disturb the rest. */
  lemma ColonlessLineSkipped(before: seq<string>, line: string, after: seq<string>)
    requires ':' !in line
    ensures ParseProfiles(before + [line] + after) == ParseProfiles(before) + ParseProfiles(after)
  {
    ParseProfilesOrder(before, line, after);
    assert Emit(NameOf(line)) == [];
  }

  /** A single line contributes its own name, if it has one, and nothing else. */
  lemma ParseProfilesSingle(line: string)
    ensures ParseProfiles([line]) == Emit(NameOf(line))
  {
    assert Collect([line], NameOf) == Emit(NameOf(line)) + Collect([line][1..], NameOf);
    assert [line][1..] == [];
  }

  /** A profile listed twice is returned twice. */
  lemma DuplicatesKept(line: string)
    requires NameOf(line).Some?
    ensures ParseProfiles([line, line]) == [NameOf(line).value, NameOf(line).value]
  {
    CollectAppend([line], [line], NameOf);
    ParseProfilesSingle(line);
    assert [line] + [line] == [line, line];
  }

  /** `list_wifi_profiles`: a failed listing yields no profiles. */
  function ListProfiles(listing: CommandOutput): (names: seq<string>)
    ensures listing.Failed? ==> names == []
    ensures forall k :: 0 <= k < |names| ==> IsProfileName(names[k]) && NoLineBreak(names[k])
  {
    match listing
    case Failed(_) => []
    case Output(text) =>
      var lines := SplitLines(text);
      var names := ParseProfiles(lines);
      ParseProfilesNames(lines);
      forall k | 0 <= k < |names| ensures NoLineBreak(names[k]) {
        NameFromUnbrokenLine(lines, names[k]);
      }
      names
  }

  /** A listing printed line by line is scanned line by line. */
  lemma ListProfilesPrinted(lines: seq<string>)
    requires forall k :: 0 <= k < |lines| ==> NoLineBreak(lines[k])
    ensures ListProfiles(Output(JoinLines(lines))) == ParseProfiles(lines)
  {
    SplitLinesJoinLines(lines);
  }

  lemma NameFromUnbrokenLine(lines: seq<string>, name: string)
    requires forall k :: 0 <= k < |lines| ==> NoLineBreak(lines[k])
    requires name in ParseProfiles(lines)
    ensures NoLineBreak(name)
  {
    var i := CollectSource(lines, NameOf, name);
    StrippedFieldUnbroken(lines[i]);
  }

  /** The trimmed second field of a line without breaks has none either. */
  lemma StrippedFieldUnbroken(line: string)
    requires NoLineBreak(line) && ':' in line
    ensures NoLineBreak(Strip(SecondField(line).value))
  {
    var field := SecondField(line).value;
    var name := Strip(field);
    var start, stop := SecondFieldSpan(line);
    forall j | 0 <= j < |name| ensures !IsLineBreak(name[j]) {
      StripSubset(field, name[j]);
      var k :| 0 <= k < |field| && field[k] == name[j];
      assert line[start + k] == name[j];
    }
  }

  /** One more line adds its name, if any, at the end. */
  lemma ParseProfilesStep(lines: seq<string>, i: nat)
    requires i < |lines|
    ensures ParseProfiles(lines[..i + 1]) == ParseProfiles(lines[..i]) + Emit(NameOf(lines[i]))
  {
    var before, line := lines[..i], lines[i];
    assert lines[..i + 1] == before + [line];
    CollectAppend(before, [line], NameOf);
    ParseProfilesSingle(line);
  }

  /** `list_wifi_profiles` with its `for` loop, appending as it goes; `run` stands
      for `subprocess.check_output`, called once. The listing's output is handed
      back too, so that a caller can report its failure as netsh2.py does. */
  method ListWifiProfiles(run: seq<string> -> CommandOutput) returns (profiles: seq<string>, listing: CommandOutput)
    ensures listing == run(ListCommand)
    ensures profiles == ListProfiles(listing)
  {
    profiles := [];
    listing := run(ListCommand);
    if listing.Failed? {
      return;
    }
    var lines := SplitLines(listing.text);
    var i := 0;
    while i < |lines|
      invariant 0 <= i <= |lines|
      invariant profiles == ParseProfiles(lines[..i])
    {
      var line := lines[i];
      ParseProfilesStep(lines, i);
      if Contains(line, ProfileMarker) {
        var field := SecondField(line);
        if field.Some? {
          var name := Strip(field.value);
          if name != [] {
            profiles := profiles + [name];
          }
        }
      }
      i := i + 1;
    }
    assert lines[..|lines|] == lines;
  }

  /** How the utility labels a profile line (indentation and padding included). */
  const ListingLabel := "    " + ProfileMarker + "     "

  function ListingLine(name: string): string {
    ListingLabel + ": " + name
  }

  lemma MarkerFacts()
    ensures ':' !in ProfileMarker && NoLineBreak(ProfileMarker)
  {
  }

  lemma ListingLabelFacts()
    ensures Contains(ListingLabel, ProfileMarker)
    ensures ':' !in ListingLabel
    ensures NoLineBreak(ListingLabel)
  {
    MarkerFacts();
    assert ProfileMarker <= ProfileMarker;
    ContainsInfix("    ", ProfileMarker, "     ", ProfileMarker);
    NoLineBreakAppend("    ", ProfileMarker);
    NoLineBreakAppend("    " + ProfileMarker, "     ");
  }

  /** A well-formed listing line yields exactly the name it lists. */
  lemma ListingLineName(name: string)
    requires IsProfileName(name) && NoLineBreak(name)
    ensures NameOf(ListingLine(name)) == Some(name)
    ensures NoLineBreak(ListingLine(name))
  {
    ListingLabelFacts();
    NoLineBreakAppend(ListingLabel, ": ");
    NoLineBreakAppend(ListingLabel + ": ", name);
    assert ListingLine(name) == ListingLabel + ":" + (" " + name + []) + [];
    NameOfLine(ListingLabel, " ", name, [], []);
  }

  /** Only the text up to a second colon is taken: a listed name followed by a colon
      and anything else still yields just that name. */
  lemma NameStopsAtColon(name: string, rest: string)
    requires IsProfileName(name)
    ensures NameOf(ListingLine(name) + ":" + rest) == Some(name)
  {
    ListingLabelFacts();
    assert ListingLine(name) + ":" + rest == ListingLabel + ":" + (" " + name + []) + (":" + rest);
    NameOfLine(ListingLabel, " ", name, [], ":" + rest);
  }

  /** A listing of two profiles, one per line as the utility prints them, gives both
      names in listing order, whatever the names are. */
  lemma ListProfilesTwoLines(a: string, b: string)
    requires IsProfileName(a) && NoLineBreak(a)
    requires IsProfileName(b) && NoLineBreak(b)
    ensures ListProfiles(Output(ListingLine(a) + "\n" + ListingLine(b) + "\n")) == [a, b]
  {
    var l1 := ListingLine(a);
    var l2 := ListingLine(b);
    ListingLineName(a);
    ListingLineName(b);
    assert l1 + "\n" + l2 + "\n" == l1 + "\n" + (l2 + "\n" + []);
    SplitLinesCons(l1, l2 + "\n" + []);
    SplitLinesCons(l2, []);
    assert SplitLines([]) == [];
    var text := ListingLine(a) + "\n" + ListingLine(b) + "\n";
    assert SplitLines(text) == [l1, l2];
    CollectAppend([l1], [l2], NameOf);
    ParseProfilesSingle(l1);
    ParseProfilesSingle(l2);
    assert [l1] + [l2] == [l1, l2];
    assert ParseProfiles([l1, l2]) == [a, b];
  }
}

=== FILE: reports.dfy ===
/** The two reports (`get_all_data` in winnetprof.py and in netsh2.py): every
    enumerated profile is resolved with one query of its own, in enumeration order,
    and the results are assembled into
    - a single fenced message, after a metadata header (winnetprof.py, which posts it);
    - a sequence of printed records (netsh2.py, which prints them).
    The utility is a parameter `query` from argument lists to outputs; the metadata
    that `get_system_info` reads from the host is a parameter too. */
module Reports {
  import opened Text
  import opened Seqs
  import opened Commands
  import opened Profiles
  import opened Secrets

  /** What `get_system_info` reads from the host: timestamp, host name, user name and
      OS descriptor. The research note it adds is the constant below. */
  datatype SystemInfo = SystemInfo(timestamp: string, hostname: string, username: string, os: string)

  const ResearchNote := "Security demonstration on authorized system only"

  /** A profile name with its resolution. */
  type Entry = (string, Resolution)

  /** The resolution of one profile: the per-profile query for that name. */
  function ResolveOne(name: string, query: seq<string> -> CommandOutput): (r: Resolution)
    ensures r.QueryFailed? <==> query(ShowKeyCommand(name)).Failed?
  {
    Resolve(query(ShowKeyCommand(name)))
  }

  /** One query per profile, in enumeration order. */
  function ResolveAll(profiles: seq<string>, query: seq<string> -> CommandOutput): (entries: seq<Entry>)
    ensures |entries| == |profiles|
    ensures forall i :: 0 <= i < |profiles| ==> entries[i].0 == profiles[i]
  {
    if |profiles| == 0 then []
    else [(profiles[0], ResolveOne(profiles[0], query))] + ResolveAll(profiles[1..], query)
  }

  lemma {:induction false} ResolveAllAppend(a: seq<string>, b: seq<string>, query: seq<string> -> CommandOutput)
    ensures ResolveAll(a + b, query) == ResolveAll(a, query) + ResolveAll(b, query)
  {
    if |a| == 0 {
      assert a + b == b;
    } else {
      assert (a + b)[0] == a[0];
      assert (a + b)[1..] == a[1..] + b;
      ResolveAllAppend(a[1..], b, query);
      var h := [(a[0], ResolveOne(a[0], query))];
      calc {
        ResolveAll(a + b, query);
        h + ResolveAll(a[1..] + b, query);
        h + (ResolveAll(a[1..], query) + ResolveAll(b, query));
        (h + ResolveAll(a[1..], query)) + ResolveAll(b, query);
      }
    }
  }

  /** One more profile adds its entry at the end. */
  lemma ResolveAllStep(profiles: seq<string>, i: nat, query: seq<string> -> CommandOutput)
    requires i < |profiles|
    ensures ResolveAll(profiles[..i + 1], query) == ResolveAll(profiles[..i], query) + [(profiles[i], ResolveOne(profiles[i], query))]
  {
    assert profiles[..i + 1] == profiles[..i] + [profiles[i]];
    ResolveAllAppend(profiles[..i], [profiles[i]], query);
    assert [profiles[i]][1..] == [];
  }

  /** Profiles are resolved independently: an entry depends only on what the query
      answers for that profile, so a failure elsewhere leaves it untouched. */
  lemma {:induction false} ResolveAllIndependent(profiles: seq<string>, q1: seq<string> -> CommandOutput,
                                                  q2: seq<string> -> CommandOutput, i: nat)
    requires i < |profiles|
    requires q1(ShowKeyCommand(profiles[i])) == q2(ShowKeyCommand(profiles[i]))
    ensures ResolveAll(profiles, q1)[i] == ResolveAll(profiles, q2)[i]
    ensures ResolveAll(profiles, q1)[i].1 == Resolve(q1(ShowKeyCommand(profiles[i])))
  {
    if i > 0 {
      ResolveAllIndependent(profiles[1..], q1, q2, i - 1);
    }
  }

  /* ---------------------------------------------------------------- webhook message */

  const Fence := "```"
  const NoProfilesText := "\nNo Wi-Fi profiles found."
  /** The header's closing lines, after the OS descriptor. */
  const HeaderNote := "\nNote: " + ResearchNote + "\n\nStored Wi-Fi Profiles:\n"

  /** The metadata header that opens the fence. The user name is gathered but not
      shown. */
  function Header(info: SystemInfo): (h: string)
    ensures |h| == 141 + |info.timestamp| + |info.hostname| + |info.os|
    ensures Fence + "\n" <= h && h[47..47 + |info.timestamp|] == info.timestamp
    ensures var t, n, o := |info.timestamp|, |info.hostname|, |info.os|;
            h[56 + t..56 + t + n] == info.hostname && h[61 + t + n..61 + t + n + o] == info.os
  {
    var intro := Fence + "\n" + "Security Research Documentation\nTimestamp: ";
    assert |intro| == 47 && Fence + "\n" <= intro;
    ThreeInfixes(intro, info.timestamp, "\nSystem: ", info.hostname, "\nOS: ", info.os, HeaderNote);
    intro + info.timestamp + ("\nSystem: " + info.hostname + ("\nOS: " + info.os + HeaderNote))
  }

  /** The lines winnetprof.py appends for one profile: its name, then its password. */
  function ProfileBlock(e: Entry): (b: string)
    ensures |b| == 22 + |e.0| + |Render(Webhook, e.1)|
    ensures b[..10] == "\nProfile: " && b[10..10 + |e.0|] == e.0 && b[|b| - 1] == '\n'
    ensures b[10 + |e.0|..] == "\nPassword: " + Render(Webhook, e.1) + "\n"
  {
    var password := "\nPassword: " + Render(Webhook, e.1) + "\n";
    ThreeParts("\nProfile: ", e.0, password);
    "\nProfile: " + e.0 + password
  }

  /** The profile blocks, one after the other. */
  function Blocks(entries: seq<Entry>): string {
    Flatten(entries, ProfileBlock)
  }

  /** The message winnetprof.py posts. */
  function WebhookMessage(info: SystemInfo, entries: seq<Entry>): (m: string)
    ensures Header(info) <= m
    ensures |m| >= |Header(info)| + |Fence| && m[|m| - |Fence|..] == Fence
  {
    var body := if |entries| == 0 then NoProfilesText else Blocks(entries);
    assert (Header(info) + body + Fence)[..|Header(info)|] == Header(info);
    Header(info) + body + Fence
  }

  /** Without profiles, the fence holds only the header and the no-profiles line. */
  lemma WebhookMessageEmpty(info: SystemInfo)
    ensures WebhookMessage(info, []) == Header(info) + NoProfilesText + Fence
  {
  }

  /** Inside the fence: the block of each entry in order, that of entry `i` between
      those of the entries before and after it. */
  lemma WebhookMessageBody(info: SystemInfo, entries: seq<Entry>, i: nat)
    requires i < |entries|
    ensures WebhookMessage(info, entries)
            == Header(info) + (Blocks(entries[..i]) + ProfileBlock(entries[i]) + Blocks(entries[i + 1..])) + Fence
  {
    FlattenSplit(entries, ProfileBlock, i);
  }

  /** An empty enumeration and a non-empty one never give the same message: the
      first block starts differently from the "no profiles" line. */
  lemma EmptyMessageDistinct(info: SystemInfo, entries: seq<Entry>)
    requires |entries| > 0
    ensures WebhookMessage(info, []) != WebhookMessage(info, entries)
  {
    var h := |Header(info)|;
    var m1 := WebhookMessage(info, []);
    var m2 := WebhookMessage(info, entries);
    assert m1[h + 1] == NoProfilesText[1] == 'N';
    assert m2[h + 1] == ProfileBlock(entries[0])[1] == 'P';
  }

  /** One more profile adds its block at the end. */
  lemma BlocksStep(profiles: seq<string>, i: nat, query: seq<string> -> CommandOutput)
    requires i < |profiles|
    ensures Blocks(ResolveAll(profiles[..i + 1], query))
            == Blocks(ResolveAll(profiles[..i], query)) + ProfileBlock((profiles[i], ResolveOne(profiles[i], query)))
  {
    ResolveAllStep(profiles, i, query);
    FlattenSnoc(ResolveAll(profiles[..i], query), (profiles[i], ResolveOne(profiles[i], query)), ProfileBlock);
  }

  /** The `for` loop of winnetprof.py's `get_all_data`: the blocks it appends to the
      message, one profile at a time. */
  method AppendBlocks(profiles: seq<string>, query: seq<string> -> CommandOutput) returns (text: string)
    ensures text == Blocks(ResolveAll(profiles, query))
  {
    text := [];
    var i := 0;
    while i < |profiles|
      invariant 0 <= i <= |profiles|
      invariant text == Blocks(ResolveAll(profiles[..i], query))
    {
      var profile := profiles[i];
      var password := WifiPassword(Webhook, query(ShowKeyCommand(profile)));
      var block := "\nProfile: " + profile + "\nPassword: " + password + "\n";
      assert block == ProfileBlock((profile, ResolveOne(profile, query)));
      BlocksStep(profiles, i, query);
      text := text + block;
      i := i + 1;
    }
    assert profiles[..|profiles|] == profiles;
  }

  /** winnetprof.py's `get_all_data` up to the message it posts. */
  method BuildWebhookMessage(info: SystemInfo, query: seq<string> -> CommandOutput)
    returns (message: string)
    ensures message == WebhookMessage(info, ResolveAll(ListProfiles(query(ListCommand)), query))
  {
    message := Header(info);
    var profiles, _ := ListWifiProfiles(query);
    if |profiles| == 0 {
      message := message + NoProfilesText;
    } else {
      var blocks := AppendBlocks(profiles, query);
      message := message + blocks;
    }
    message := message + Fence;
  }

  /** The user name is gathered but never reported. */
  lemma HeaderOmitsUsername(info: SystemInfo, user: string, entries: seq<Entry>)
    ensures WebhookMessage(info, entries) == WebhookMessage(info.(username := user), entries)
  {
  }

  /* ---------------------------------------------------------------- console records */

  const ConsoleBanner := "\n:: Stored Wi-Fi Passwords ::"

  function ListingErrorRecord(detail: string): (r: string)
    ensures |r| == 33 + |detail| && r[33..] == detail
  {
    "\nError listing Wi-Fi profiles:\n- " + detail
  }

  function QueryErrorRecord(name: string, detail: string): (r: string)
    ensures |r| == 33 + |name| + |detail|
    ensures r[31..31 + |name|] == name && r[33 + |name|..] == detail
  {
    "\nError retrieving password for " + name + ": " + detail
  }

  /** What netsh2.py prints for one profile: the error record of a failed query
      (printed while the password is fetched), then the name, then the password. */
  function ProfileRecords(e: Entry): (records: seq<string>)
    ensures |records| == if e.1.QueryFailed? then 3 else 2
    ensures e.1.QueryFailed? ==> records[0] == QueryErrorRecord(e.0, e.1.detail)
    ensures records[|records| - 2] == "\nWi-Fi Profile: " + e.0
    ensures records[|records| - 1] == "Password: " + Render(Console, e.1)
  {
    (if e.1.QueryFailed? then [QueryErrorRecord(e.0, e.1.detail)] else [])
    + ["\nWi-Fi Profile: " + e.0, "Password: " + Render(Console, e.1)]
  }

  function AllProfileRecords(entries: seq<Entry>): seq<string> {
    Flatten(entries, ProfileRecords)
  }

  /** Number of failed queries among the entries. */
  function Failures(entries: seq<Entry>): nat {
    if |entries| == 0 then 0 else (if entries[0].1.QueryFailed? then 1 else 0) + Failures(entries[1..])
  }

  /** Everything netsh2.py prints, in order. */
  function ConsoleRecords(listing: CommandOutput, query: seq<string> -> CommandOutput): (out: seq<string>)
    ensures |out| >= 2 && out[0] == ConsoleBanner
  {
    var profiles := ListProfiles(listing);
    [ConsoleBanner]
    + (if listing.Failed? then [ListingErrorRecord(listing.detail)] else [])
    + (if |profiles| == 0 then [NoProfilesText] else AllProfileRecords(ResolveAll(profiles, query)))
  }

  /** Two records per profile, plus one more for each failed query. */
  lemma {:induction false} AllProfileRecordsCount(entries: seq<Entry>)
    ensures |AllProfileRecords(entries)| == 2 * |entries| + Failures(entries)
  {
    if |entries| > 0 {
      AllProfileRecordsCount(entries[1..]);
    }
  }

  /** The records of profile `i` sit between those of the profiles before and after
      it; its password record always shows the console rendering of its resolution. */
  lemma ConsoleRecordsOfProfile(entries: seq<Entry>, i: nat)
    requires i < |entries|
    ensures AllProfileRecords(entries)
            == AllProfileRecords(entries[..i]) + ProfileRecords(entries[i]) + AllProfileRecords(entries[i + 1..])
    ensures var records := ProfileRecords(entries[i]);
            records[|records| - 1] == "Password: " + Render(Console, entries[i].1)
  {
    FlattenSplit(entries, ProfileRecords, i);
  }

  /** How many records netsh2.py prints: the banner, the listing error when the
      listing failed, then one "no profiles" record or the profile records. */
  lemma ConsoleRecordsCount(listing: CommandOutput, query: seq<string> -> CommandOutput)
    ensures var profiles := ListProfiles(listing);
            var entries := ResolveAll(profiles, query);
            |ConsoleRecords(listing, query)|
            == if |profiles| == 0 then (if listing.Failed? then 3 else 2)
               else 1 + 2 * |profiles| + Failures(entries)
  {
    AllProfileRecordsCount(ResolveAll(ListProfiles(listing), query));
  }

  /** Without profiles, only the banner, the listing error if the listing failed, and
      the "no profiles" record are printed. */
  lemma ConsoleRecordsNoProfiles(listing: CommandOutput, query: seq<string> -> CommandOutput)
    requires ListProfiles(listing) == []
    ensures ConsoleRecords(listing, query)
            == if listing.Failed? then [ConsoleBanner, ListingErrorRecord(listing.detail), NoProfilesText]
               else [ConsoleBanner, NoProfilesText]
  {
  }

  /** A successful listing with profiles prints the banner and their records. */
  lemma ConsoleRecordsListed(listing: CommandOutput, query: seq<string> -> CommandOutput)
    requires listing.Output? && ListProfiles(listing) != []
    ensures ConsoleRecords(listing, query) == [ConsoleBanner] + AllProfileRecords(ResolveAll(ListProfiles(listing), query))
  {
    assert [ConsoleBanner] + [] == [ConsoleBanner];
  }

  /** The two scripts show the same text for a profile unless the secret could not be
      read or the query failed. */
  lemma ScriptsAgree(r: Resolution)
    requires !r.Inaccessible? && !r.QueryFailed?
    ensures Render(Webhook, r) == Render(Console, r)
  {
  }

  /** One more profile adds its records at the end. */
  lemma RecordsStep(profiles: seq<string>, i: nat, query: seq<string> -> CommandOutput)
    requires i < |profiles|
    ensures AllProfileRecords(ResolveAll(profiles[..i + 1], query))
            == AllProfileRecords(ResolveAll(profiles[..i], query)) + ProfileRecords((profiles[i], ResolveOne(profiles[i], query)))
  {
    ResolveAllStep(profiles, i, query);
    FlattenSnoc(ResolveAll(profiles[..i], query), (profiles[i], ResolveOne(profiles[i], query)), ProfileRecords);
  }

  /** The `for` loop of netsh2.py's `get_all_data`: what it prints, one profile at a
      time. */
  method PrintProfiles(profiles: seq<string>, query: seq<string> -> CommandOutput) returns (printed: seq<string>)
    ensures printed == AllProfileRecords(ResolveAll(profiles, query))
  {
    printed := [];
    var i := 0;
    while i < |profiles|
      invariant 0 <= i <= |profiles|
      invariant printed == AllProfileRecords(ResolveAll(profiles[..i], query))
    {
      var profile := profiles[i];
      var output := query(ShowKeyCommand(profile));
      var errors := if output.Failed? then [QueryErrorRecord(profile, output.detail)] else [];
      var password := WifiPassword(Console, output);
      var records := errors + ["\nWi-Fi Profile: " + profile, "Password: " + password];
      assert records == ProfileRecords((profile, ResolveOne(profile, query)));
      RecordsStep(profiles, i, query);
      printed := printed + records;
      i := i + 1;
    }
    assert profiles[..|profiles|] == profiles;
  }

  /** `get_all_data` of netsh2.py: the banner, the enumeration (which prints its own
      error record), then the loop over the profiles. */
  method PrintAllData(query: seq<string> -> CommandOutput) returns (printed: seq<string>)
    ensures printed == ConsoleRecords(query(ListCommand), query)
  {
    printed := [ConsoleBanner];
    var profiles, listing := ListWifiProfiles(query);
    if listing.Failed? {
      printed := printed + [ListingErrorRecord(listing.detail)];
    }
    if |profiles| == 0 {
      printed := printed + [NoProfilesText];
    } else {
      var records := PrintProfiles(profiles, query);
      printed := printed + records;
    }
  }

  /* ---------------------------------------------------------------- a whole run */

  /** The listing of two profiles, "HomeWifi" with a stored key and "CafeOpen" without
      one. */
  const ExampleListing := Output(ListingLine("HomeWifi") + "\n" + ListingLine("CafeOpen") + "\n")

  function ExampleQuery(argv: seq<string>): CommandOutput {
    if argv == ShowKeyCommand("HomeWifi") then Output(KeyContentLine("s3cr3t")) else Output(AbsentSecurityLine)
  }

  lemma ExampleProfiles()
    ensures ListProfiles(ExampleListing) == ["HomeWifi", "CafeOpen"]
  {
    assert IsProfileName("HomeWifi") && NoLineBreak("HomeWifi");
    assert IsProfileName("CafeOpen") && NoLineBreak("CafeOpen");
    ListProfilesTwoLines("HomeWifi", "CafeOpen");
  }

  lemma ExampleCommandsDistinct()
    ensures ShowKeyCommand("CafeOpen") != ShowKeyCommand("HomeWifi")
  {
    if ShowKeyCommand("CafeOpen") == ShowKeyCommand("HomeWifi") {
      ShowKeyCommandInjective("CafeOpen", "HomeWifi");
    }
  }

  lemma ExampleSecretFacts()
    ensures "s3cr3t" != [] && IsStripped("s3cr3t") && ':' !in "s3cr3t" && NoLineBreak("s3cr3t")
  {
  }

  /** Each profile is resolved from its own query. */
  lemma ExampleEntries()
    ensures ResolveAll(["HomeWifi", "CafeOpen"], ExampleQuery) == [("HomeWifi", Resolved("s3cr3t")), ("CafeOpen", Open)]
  {
    ExampleResolutions();
    var profiles := ["HomeWifi", "CafeOpen"];
    assert profiles[1..] == ["CafeOpen"];
    assert profiles[1..][1..] == [];
  }

  /** Each sample profile resolves from its own answer. */
  lemma ExampleResolutions()
    ensures ResolveOne("HomeWifi", ExampleQuery) == Resolved("s3cr3t")
    ensures ResolveOne("CafeOpen", ExampleQuery) == Open
  {
    ExampleCommandsDistinct();
    ExampleSecretFacts();
    ResolveKeyContentLine("s3cr3t");
    ResolveAbsentSecurityLine();
  }

  /** The profiles come out in listing order, each resolved from its own query. */
  lemma ExampleRun()
    ensures ResolveAll(ListProfiles(ExampleListing), ExampleQuery) == [("HomeWifi", Resolved("s3cr3t")), ("CafeOpen", Open)]
  {
    ExampleProfiles();
    ExampleEntries();
  }

  /** Two entries: two blocks, two groups of records, in order. */
  lemma TwoEntries(e1: Entry, e2: Entry)
    ensures Blocks([e1, e2]) == ProfileBlock(e1) + ProfileBlock(e2)
    ensures AllProfileRecords([e1, e2]) == ProfileRecords(e1) + ProfileRecords(e2)
  {
    FlattenPair(e1, e2, ProfileBlock);
    FlattenPair(e1, e2, ProfileRecords);
  }

  /** Two profiles whose queries succeed print four records: name, password, name,
      password. */
  lemma TwoRecords(e1: Entry, e2: Entry)
    requires !e1.1.QueryFailed? && !e2.1.QueryFailed?
    ensures var out := AllProfileRecords([e1, e2]);
            && |out| == 4
            && out[0] == "\nWi-Fi Profile: " + e1.0 && out[1] == "Password: " + Render(Console, e1.1)
            && out[2] == "\nWi-Fi Profile: " + e2.0 && out[3] == "Password: " + Render(Console, e2.1)
  {
    TwoEntries(e1, e2);
    assert ProfileRecords(e1) == [] + ["\nWi-Fi Profile: " + e1.0, "Password: " + Render(Console, e1.1)];
    assert ProfileRecords(e2) == [] + ["\nWi-Fi Profile: " + e2.0, "Password: " + Render(Console, e2.1)];
  }

  /** The posted message shows the two profiles in listing order. */
  lemma ExampleMessage(info: SystemInfo)
    ensures WebhookMessage(info, ResolveAll(ListProfiles(ExampleListing), ExampleQuery))
            == Header(info) + ("\nProfile: " + "HomeWifi" + ("\nPassword: " + "s3cr3t" + "\n")
                               + ("\nProfile: " + "CafeOpen" + ("\nPassword: " + OpenMessage + "\n"))) + Fence
  {
    ExampleRun();
    TwoEntries(("HomeWifi", Resolved("s3cr3t")), ("CafeOpen", Open));
  }

  /** A listing of two profiles whose queries succeed prints the banner and four
      records. */
  lemma ConsoleOfTwo(listing: CommandOutput, query: seq<string> -> CommandOutput, e1: Entry, e2: Entry)
    requires listing.Output? && ResolveAll(ListProfiles(listing), query) == [e1, e2]
    requires !e1.1.QueryFailed? && !e2.1.QueryFailed?
    ensures var out := ConsoleRecords(listing, query);
            && |out| == 5 && out[0] == ConsoleBanner
            && out[1] == "\nWi-Fi Profile: " + e1.0 && out[2] == "Password: " + Render(Console, e1.1)
            && out[3] == "\nWi-Fi Profile: " + e2.0 && out[4] == "Password: " + Render(Console, e2.1)
  {
    ConsoleRecordsListed(listing, query);
    TwoRecords(e1, e2);
  }

  /** The printed records show the two profiles in listing order. */
  lemma ExampleConsole()
    ensures var out := ConsoleRecords(ExampleListing, ExampleQuery);
            && |out| == 5 && out[0] == ConsoleBanner
            && out[1] == "\nWi-Fi Profile: " + "HomeWifi" && out[2] == "Password: " + "s3cr3t"
            && out[3] == "\nWi-Fi Profile: " + "CafeOpen" && out[4] == "Password: " + OpenMessage
  {
    ExampleRun();
    ConsoleOfTwo(ExampleListing, ExampleQuery, ("HomeWifi", Resolved("s3cr3t")), ("CafeOpen", Open));
  }
}

=== FILE: secrets.dfy ===
/** Secret resolution (`get_wifi_password` in winnetprof.py and netsh2.py): the
    output of the per-profile query is classified by a fixed priority, and the
    classification is rendered to the string each script returns.

    The first line mentioning "Key Content" decides: its text after the last colon,
    trimmed, is the secret, or "hidden" when that text is blank. Without such a line,
    the first line mentioning "Security key" marks an open network when it also
    mentions "Absent"; anything else is a secret that cannot be read. A failed query
    is a failure whatever its output. */
module Secrets {
  import opened Text
  import opened Seqs
  import opened Commands

  const KeyContentMarker := "Key Content"
  const SecurityKeyMarker := "Security key"
  const AbsentMarker := "Absent"

  datatype Resolution =
    | Resolved(secret: string)      // a stored key, in clear
    | HiddenEmpty                   // a key line whose value is blank
    | Open                          // no key line, and the security key is absent
    | Inaccessible                  // no key line, and nothing says the network is open
    | QueryFailed(detail: string)   // the query itself failed

  predicate IsKeyLine(line: string) { Contains(line, KeyContentMarker) }

  predicate IsSecurityLine(line: string) { Contains(line, SecurityKeyMarker) }

  /* ---------------------------------------------------------------- last field */

  /** `line.split(":")[-1]`: the text after the last colon, or the whole line when it
      has no colon. */
  function LastField(line: string): (r: string)
    ensures ':' !in r && |r| <= |line|
  {
    line[LastIndexOf(line, ':') + 1..]
  }

  /** Past the first colon, the last field is that of the rest of the line. */
  lemma LastFieldPastColon(line: string, i: nat)
    requires i < |line| && line[i] == ':'
    ensures LastField(line) == LastField(line[i + 1..])
  {
    var rest := line[i + 1..];
    var j := LastIndexOf(rest, ':');
    if j >= 0 {
      assert line[i + 1 + j] == rest[j];
    }
    forall k | i + 1 + j < k < |line| ensures line[k] != ':' {
      assert line[k] == rest[k - i - 1];
    }
    LastIndexOfUnique(line, ':', i + 1 + j);
    assert line[i + 1 + j + 1..] == rest[j + 1..];
  }

  /** `LastField` is the last piece of Python's `split(":")`. */
  lemma {:induction false} LastFieldIsSplit(line: string)
    ensures LastField(line) == Split(line, ':')[|Split(line, ':')| - 1]
    decreases |line|
  {
    var i := IndexOf(line, ':');
    if i < |line| {
      var head, rest := line[..i], line[i + 1..];
      assert line == head + [':'] + rest;
      LastFieldIsSplit(rest);
      LastFieldStep(head, rest);
    } else {
      LastFieldWithoutColon(line);
    }
  }

  /** The inductive step of `LastFieldIsSplit`: past the first colon, the last field
      and the last piece of the split both carry over from the rest of the line. */
  lemma LastFieldStep(head: string, rest: string)
    requires ':' !in head
    requires LastField(rest) == Split(rest, ':')[|Split(rest, ':')| - 1]
    ensures var line := head + [':'] + rest;
            LastField(line) == Split(line, ':')[|Split(line, ':')| - 1]
  {
    var line := head + [':'] + rest;
    assert LastField(line) == LastField(rest) by {
      LastFieldPastColon(line, |head|);
      assert line[|head| + 1..] == rest;
    }
    var whole, parts := Split(line, ':'), Split(rest, ':');
    assert whole == [head] + parts by { SplitAt(head, rest, ':'); }
    assert whole[|whole| - 1] == parts[|parts| - 1];
  }

  /** Without a colon, the last field and the only piece are the whole line. */
  lemma LastFieldWithoutColon(line: string)
    requires IndexOf(line, ':') == |line|
    ensures LastField(line) == line && Split(line, ':') == [line]
  {
    assert forall k :: -1 < k < |line| ==> line[k] != ':';
    LastIndexOfUnique(line, ':', -1);
    assert line[0..] == line;
    SplitWithoutSep(line, ':');
  }

  /** After a colon, the rest of a colon-free line is the last field. */
  lemma LastFieldAfterColon(head: string, field: string)
    requires |head| > 0 && head[|head| - 1] == ':' && ':' !in field
    ensures LastField(head + field) == field
  {
    var line := head + field;
    assert forall k :: |head| <= k < |line| ==> line[k] == field[k - |head|];
    LastIndexOfUnique(line, ':', |head| - 1);
    assert line[|head|..] == field;
  }

  /* ---------------------------------------------------------------- classification */

  /** `password_lines[0].split(":")[-1].strip()` and the test of whether it is empty. */
  function KeyOutcome(line: string): (r: Resolution)
    ensures r.Resolved? || r.HiddenEmpty?
    ensures r.Resolved? ==> r.secret != [] && IsStripped(r.secret) && ':' !in r.secret
  {
    var value := Strip(LastField(line));
    if value == [] then HiddenEmpty
    else
      assert ':' !in value by {
        if ':' in value { StripSubset(LastField(line), ':'); }
      }
      Resolved(value)
  }

  /** A key line `head value`, where `head` ends in a colon and the value is padded
      with whitespace, resolves to the value, or to "hidden" when the value is empty. */
  lemma KeyOutcomeOfLine(head: string, a: string, value: string, b: string)
    requires |head| > 0 && head[|head| - 1] == ':'
    requires AllSpace(a) && AllSpace(b) && IsStripped(value) && ':' !in a + value + b
    ensures KeyOutcome(head + (a + value + b)) == if value == [] then HiddenEmpty else Resolved(value)
  {
    LastFieldAfterColon(head, a + value + b);
    StripPadded(a, value, b);
  }

  /** Classification of the query output, split into lines. */
  function ClassifyLines(lines: seq<string>): (r: Resolution)
    ensures !r.QueryFailed?
  {
    var passwordLines := Filter(lines, IsKeyLine);
    if passwordLines == [] then
      var securityLines := Filter(lines, IsSecurityLine);
      if securityLines != [] && Contains(securityLines[0], AbsentMarker) then Open
      else Inaccessible
    else
      KeyOutcome(passwordLines[0])
  }

  /** `get_wifi_password` up to the returned string. */
  function Resolve(output: CommandOutput): (r: Resolution)
    ensures r.QueryFailed? <==> output.Failed?
    ensures output.Failed? ==> r.detail == output.detail
  {
    match output
    case Failed(detail) => QueryFailed(detail)
    case Output(text) => ClassifyLines(SplitLines(text))
  }

  /** How the utility prints the key line and the security key line (indentation and
      padding included). */
  const KeyLinePrefix := "    " + KeyContentMarker + "            :"
  const SecurityLinePrefix := "    " + SecurityKeyMarker + "           :"

  function KeyContentLine(value: string): string {
    KeyLinePrefix + " " + value
  }

  const AbsentSecurityLine := SecurityLinePrefix + " " + AbsentMarker

  /** Output holding just a key line reveals its value. */
  lemma ResolveKeyContentLine(value: string)
    requires value != [] && IsStripped(value) && ':' !in value && NoLineBreak(value)
    ensures Resolve(Output(KeyContentLine(value))) == Resolved(value)
  {
    var line := KeyContentLine(value);
    assert NoLineBreak(KeyContentMarker);
    NoLineBreakAppend("    ", KeyContentMarker);
    NoLineBreakAppend("    " + KeyContentMarker, "            :");
    NoLineBreakAppend(KeyLinePrefix, " ");
    NoLineBreakAppend(KeyLinePrefix + " ", value);
    SplitLinesUnbroken(line);
    assert KeyContentMarker <= KeyContentMarker;
    ContainsInfix("    ", KeyContentMarker, "            :" + " " + value, KeyContentMarker);
    assert "    " + KeyContentMarker + ("            :" + " " + value) == line;
    assert Filter([line], IsKeyLine) == [line] + Filter([line][1..], IsKeyLine);
    assert [line][1..] == [];
    assert KeyLinePrefix[|KeyLinePrefix| - 1] == ':';
    assert KeyLinePrefix + (" " + value + []) == line;
    KeyOutcomeOfLine(KeyLinePrefix, " ", value, []);
  }

  /** Only the text after the LAST colon is taken, so a stored key holding a colon
      comes back cut to its final piece. */
  lemma KeyCutAtLastColon(front: string, back: string)
    requires ':' !in back && back != [] && IsStripped(back)
    ensures KeyOutcome(KeyContentLine(front + ":" + back)) == Resolved(back)
  {
    var head := KeyLinePrefix + " " + front + ":";
    assert head[|head| - 1] == ':';
    assert head + ([] + back + []) == KeyContentLine(front + ":" + back);
    KeyOutcomeOfLine(head, [], back, []);
  }

  lemma AbsentSecurityLineFacts()
    ensures NoLineBreak(AbsentSecurityLine)
    ensures !IsKeyLine(AbsentSecurityLine) && IsSecurityLine(AbsentSecurityLine)
    ensures Contains(AbsentSecurityLine, AbsentMarker)
  {
    var line := AbsentSecurityLine;
    assert NoLineBreak(SecurityKeyMarker) && NoLineBreak(AbsentMarker);
    NoLineBreakAppend("    ", SecurityKeyMarker);
    NoLineBreakAppend("    " + SecurityKeyMarker, "           :");
    NoLineBreakAppend(SecurityLinePrefix, " ");
    NoLineBreakAppend(SecurityLinePrefix + " ", AbsentMarker);
    assert 'K' !in line;
    ContainsFirstChar(line, KeyContentMarker);
    assert SecurityKeyMarker <= SecurityKeyMarker && AbsentMarker <= AbsentMarker;
    ContainsInfix("    ", SecurityKeyMarker, "           :" + " " + AbsentMarker, SecurityKeyMarker);
    assert "    " + SecurityKeyMarker + ("           :" + " " + AbsentMarker) == line;
    ContainsInfix(SecurityLinePrefix + " ", AbsentMarker, [], AbsentMarker);
    assert SecurityLinePrefix + " " + AbsentMarker + [] == line;
  }

  /** Output holding just a security key line that says "Absent" is an open network. */
  lemma ResolveAbsentSecurityLine()
    ensures Resolve(Output(AbsentSecurityLine)) == Open
  {
    var line := AbsentSecurityLine;
    AbsentSecurityLineFacts();
    SplitLinesUnbroken(line);
    assert Filter([line], IsKeyLine) == [] + Filter([line][1..], IsKeyLine);
    assert Filter([line], IsSecurityLine) == [line] + Filter([line][1..], IsSecurityLine);
    assert [line][1..] == [];
  }

  /** `i` is the first line satisfying `p`. */
  ghost predicate IsFirst(lines: seq<string>, p: string -> bool, i: int) {
    0 <= i < |lines| && p(lines[i]) && forall k :: 0 <= k < i ==> !p(lines[k])
  }

  lemma FirstIndexIsFirst(lines: seq<string>, p: string -> bool, i: int)
    requires IsFirst(lines, p, i)
    ensures FirstIndex(lines, p) == i
    ensures Filter(lines, p) != [] && Filter(lines, p)[0] == lines[i]
  {
    FilterHead(lines, p);
  }

  /** The first key line decides, whatever comes after it and whatever the security
      key lines say. */
  lemma ClassifyFirstKeyLine(lines: seq<string>, i: int)
    requires IsFirst(lines, IsKeyLine, i)
    ensures ClassifyLines(lines) == KeyOutcome(lines[i])
  {
    FirstIndexIsFirst(lines, IsKeyLine, i);
  }

  /** Without a key line, the network is open exactly when the first security key
      line mentions "Absent"; every other case is "cannot be retrieved". */
  lemma ClassifyWithoutKeyLine(lines: seq<string>)
    requires forall k :: 0 <= k < |lines| ==> !IsKeyLine(lines[k])
    ensures ClassifyLines(lines).Open? || ClassifyLines(lines).Inaccessible?
    ensures ClassifyLines(lines).Open? <==>
              exists j :: IsFirst(lines, IsSecurityLine, j) && Contains(lines[j], AbsentMarker)
  {
    FilterHead(lines, IsKeyLine);
    FilterHead(lines, IsSecurityLine);
    if exists j :: IsFirst(lines, IsSecurityLine, j) && Contains(lines[j], AbsentMarker) {
      var j :| IsFirst(lines, IsSecurityLine, j) && Contains(lines[j], AbsentMarker);
      FirstIndexIsFirst(lines, IsSecurityLine, j);
    }
    if ClassifyLines(lines).Open? {
      var j := FirstIndex(lines, IsSecurityLine);
      assert IsFirst(lines, IsSecurityLine, j);
    }
  }

  /** A line that mentions neither marker (the "Authentication" line, say) never
      changes the outcome, wherever it is inserted. */
  lemma UnmarkedLineIrrelevant(before: seq<string>, line: string, after: seq<string>)
    requires !IsKeyLine(line) && !IsSecurityLine(line)
    ensures ClassifyLines(before + [line] + after) == ClassifyLines(before + after)
  {
    FilterAppend(before + [line], after, IsKeyLine);
    FilterAppend(before, [line], IsKeyLine);
    FilterAppend(before, after, IsKeyLine);
    FilterAppend(before + [line], after, IsSecurityLine);
    FilterAppend(before, [line], IsSecurityLine);
    FilterAppend(before, after, IsSecurityLine);
    assert Filter([line], IsKeyLine) == [] by {
      assert Filter([line], IsKeyLine) == [] + Filter([line][1..], IsKeyLine);
      assert [line][1..] == [];
    }
    assert Filter([line], IsSecurityLine) == [] by {
      assert Filter([line], IsSecurityLine) == [] + Filter([line][1..], IsSecurityLine);
      assert [line][1..] == [];
    }
  }

  /* ---------------------------------------------------------------- rendering */

  /** Which script's strings: winnetprof.py posts to a webhook, netsh2.py prints. */
  datatype Script = Webhook | Console

  const HiddenMessage := "Password hidden or unavailable"
  const OpenMessage := "Open network - no password"
  const ConsoleFailureMessage := "Access denied - run as administrator"
  const WebhookFailurePrefix := "Access denied: "

  /** Both scripts open the message with the same words; only netsh2.py adds advice. */
  function InaccessibleMessage(script: Script): (text: string)
    ensures "Password cannot be retrieved" <= text
    ensures script == Webhook <==> |text| == 28
  {
    match script
    case Webhook => "Password cannot be retrieved"
    case Console => "Password cannot be retrieved - run as administrator"
  }

  /** The string `get_wifi_password` returns for a resolution. */
  function Render(script: Script, r: Resolution): (text: string)
    ensures r.Resolved? ==> text == r.secret
    ensures !r.Resolved? ==> IsMessage(script, text)
  {
    match r
    case Resolved(secret) => secret
    case HiddenEmpty => HiddenMessage
    case Open => OpenMessage
    case Inaccessible => InaccessibleMessage(script)
    case QueryFailed(detail) =>
      match script
      case Webhook => WebhookFailurePrefix + detail
      case Console => ConsoleFailureMessage
  }

  /** `get_wifi_password(profile_name)`, given what the query returned. A failed
      query yields the failure message of the script and never a secret. */
  function WifiPassword(script: Script, output: CommandOutput): (text: string)
    ensures output.Failed? && script == Webhook ==> text == WebhookFailurePrefix + output.detail
    ensures output.Failed? && script == Console ==> text == ConsoleFailureMessage
  {
    Render(script, Resolve(output))
  }

  /** Output printed line by line is classified line by line. */
  lemma ResolvePrinted(lines: seq<string>)
    requires forall k :: 0 <= k < |lines| ==> NoLineBreak(lines[k])
    ensures Resolve(Output(JoinLines(lines))) == ClassifyLines(lines)
  {
    SplitLinesJoinLines(lines);
  }

  /** With a first key line among the output's lines, the returned string is the
      trimmed text after its last colon, or the "hidden" message when that is blank;
      for both scripts and for any output text, whatever its line breaks. */
  lemma WifiPasswordFirstKeyLine(script: Script, text: string, i: int)
    requires IsFirst(SplitLines(text), IsKeyLine, i)
    ensures var value := Strip(LastField(SplitLines(text)[i]));
            WifiPassword(script, Output(text)) == if value == [] then HiddenMessage else value
  {
    ClassifyFirstKeyLine(SplitLines(text), i);
  }

  /** Without a key line in the output, the returned string is the open-network
      message exactly when the first security key line mentions "Absent", and the
      script's "cannot be retrieved" message otherwise. */
  lemma WifiPasswordWithoutKeyLine(script: Script, text: string)
    requires forall k :: 0 <= k < |SplitLines(text)| ==> !IsKeyLine(SplitLines(text)[k])
    ensures WifiPassword(script, Output(text))
            == if exists j :: IsFirst(SplitLines(text), IsSecurityLine, j) && Contains(SplitLines(text)[j], AbsentMarker)
               then OpenMessage else InaccessibleMessage(script)
  {
    var lines := SplitLines(text);
    assert Resolve(Output(text)) == ClassifyLines(lines);
    ClassifyWithoutKeyLine(lines);
    if ClassifyLines(lines).Open? {
      var j :| IsFirst(lines, IsSecurityLine, j) && Contains(lines[j], AbsentMarker);
      assert IsFirst(SplitLines(text), IsSecurityLine, j) && Contains(SplitLines(text)[j], AbsentMarker);
      assert exists j :: IsFirst(SplitLines(text), IsSecurityLine, j) && Contains(SplitLines(text)[j], AbsentMarker);
      assert WifiPassword(script, Output(text)) == OpenMessage;
    } else {
      assert WifiPassword(script, Output(text)) == InaccessibleMessage(script);
    }
  }

  /** The fixed strings a script returns instead of a secret. */
  predicate IsMessage(script: Script, text: string) {
    || text == HiddenMessage || text == OpenMessage || text == InaccessibleMessage(script)
    || (script == Webhook && WebhookFailurePrefix <= text)
    || (script == Console && text == ConsoleFailureMessage)
  }

  /** Reads a returned string back as a resolution. The console failure message
      carries no detail, so an empty one is reported. */
  function Interpret(script: Script, text: string): Resolution {
    if text == HiddenMessage then HiddenEmpty
    else if text == OpenMessage then Open
    else if text == InaccessibleMessage(script) then Inaccessible
    else if script == Webhook && WebhookFailurePrefix <= text then QueryFailed(text[|WebhookFailurePrefix|..])
    else if script == Console && text == ConsoleFailureMessage then QueryFailed([])
    else Resolved(text)
  }

  /** What of a resolution survives rendering: everything except the console's
      failure detail. */
  function Visible(script: Script, r: Resolution): Resolution {
    if script == Console && r.QueryFailed? then QueryFailed([]) else r
  }

  lemma MessagesDistinct(script: Script)
    ensures HiddenMessage != OpenMessage
    ensures HiddenMessage != InaccessibleMessage(script) && OpenMessage != InaccessibleMessage(script)
    ensures !(WebhookFailurePrefix <= HiddenMessage) && !(WebhookFailurePrefix <= OpenMessage)
    ensures !(WebhookFailurePrefix <= InaccessibleMessage(Webhook))
    ensures ConsoleFailureMessage !in {HiddenMessage, OpenMessage, InaccessibleMessage(Console)}
  {
    var inaccessible := InaccessibleMessage(script);
    assert inaccessible[0] == 'P' && inaccessible[9] == 'c' by {
      assert InaccessibleMessage(Webhook)[9] == 'c';
      assert InaccessibleMessage(Console)[9] == 'c';
    }
    assert HiddenMessage[0] != OpenMessage[0];
    assert OpenMessage[0] != inaccessible[0];
    assert HiddenMessage[9] != inaccessible[9];
    assert WebhookFailurePrefix[0] != HiddenMessage[0];
    assert WebhookFailurePrefix[0] != OpenMessage[0];
    assert WebhookFailurePrefix[0] != InaccessibleMessage(Webhook)[0];
    assert ConsoleFailureMessage[0] != HiddenMessage[0];
    assert ConsoleFailureMessage[0] != OpenMessage[0];
    assert ConsoleFailureMessage[0] != InaccessibleMessage(Console)[0];
  }

  /** Rendering loses nothing but the console's failure detail, as long as a secret
      does not itself read like one of the fixed messages. */
  lemma InterpretRender(script: Script, r: Resolution)
    requires r.Resolved? ==> !IsMessage(script, r.secret)
    ensures Interpret(script, Render(script, r)) == Visible(script, r)
  {
    MessagesDistinct(script);
    if r.QueryFailed? && script == Webhook {
      var text := WebhookFailurePrefix + r.detail;
      assert WebhookFailurePrefix <= text;
      assert text[|WebhookFailurePrefix|..] == r.detail;
    }
  }

  /** The failure a webhook report shows can never be mistaken for a secret read from
      a key line: the secret has no colon, the failure text contains one. */
  lemma WebhookFailureUnambiguous(line: string, detail: string)
    ensures Render(Webhook, KeyOutcome(line)) != Render(Webhook, QueryFailed(detail))
  {
    var text := WebhookFailurePrefix + detail;
    assert text[13] == ':';
  }

  /** The returned strings cannot tell a secret from a message with the same text: a
      key line whose value reads "Open network - no password" renders exactly like an
      open network. */
  lemma SecretLikeMessage(script: Script)
    ensures KeyOutcome("Key Content : " + OpenMessage) == Resolved(OpenMessage)
    ensures Render(script, KeyOutcome("Key Content : " + OpenMessage)) == Render(script, Open)
  {
    assert OpenMessage[0] != ' ' && OpenMessage[|OpenMessage| - 1] != ' ';
    assert ':' !in [' '] + OpenMessage + [];
    assert "Key Content : " + OpenMessage == "Key Content :" + ([' '] + OpenMessage + []);
    KeyOutcomeOfLine("Key Content :", [' '], OpenMessage, []);
  }
}

=== FILE: seqs.dfy ===
/** The two list-comprehension shapes the scripts use, stated once over any element
    type:
    - `[x for x in xs if p(x)]`                     — Filter
    - a loop appending `f(x)` whenever it is defined — Collect
    - a loop appending the text `f(x)` for every `x` — Flatten
 */
module Seqs {
  import opened Text

  function Filter<T>(xs: seq<T>, p: T -> bool): seq<T> {
    if |xs| == 0 then []
    else (if p(xs[0]) then [xs[0]] else []) + Filter(xs[1..], p)
  }

  /** Index of the first element satisfying `p`, or `|xs|` when there is none. */
  function FirstIndex<T>(xs: seq<T>, p: T -> bool): (i: nat)
    ensures i <= |xs|
    ensures i < |xs| ==> p(xs[i])
    ensures forall k :: 0 <= k < i ==> !p(xs[k])
  {
    if |xs| == 0 || p(xs[0]) then 0 else 1 + FirstIndex(xs[1..], p)
  }

  /** The filtered list keeps exactly the satisfying elements, so it is empty when
      nothing satisfies `p` and otherwise starts with the first element that does. */
  lemma {:induction false} FilterHead<T>(xs: seq<T>, p: T -> bool)
    ensures Filter(xs, p) == [] <==> FirstIndex(xs, p) == |xs|
    ensures Filter(xs, p) != [] ==> Filter(xs, p)[0] == xs[FirstIndex(xs, p)]
  {
    if |xs| > 0 && !p(xs[0]) {
      FilterHead(xs[1..], p);
    }
  }

  lemma {:induction false} FilterAppend<T>(a: seq<T>, b: seq<T>, p: T -> bool)
    ensures Filter(a + b, p) == Filter(a, p) + Filter(b, p)
  {
    if |a| == 0 {
      assert a + b == b;
    } else {
      assert (a + b)[0] == a[0];
      assert (a + b)[1..] == a[1..] + b;
      FilterAppend(a[1..], b, p);
      var h := if p(a[0]) then [a[0]] else [];
      calc {
        Filter(a + b, p);
        h + Filter(a[1..] + b, p);
        h + (Filter(a[1..], p) + Filter(b, p));
        (h + Filter(a[1..], p)) + Filter(b, p);
      }
    }
  }

  /** Every element of the filtered list satisfies `p`. */
  lemma {:induction false} FilterSatisfies<T>(xs: seq<T>, p: T -> bool)
    ensures forall k :: 0 <= k < |Filter(xs, p)| ==> p(Filter(xs, p)[k])
    ensures |Filter(xs, p)| <= |xs|
  {
    if |xs| > 0 {
      FilterSatisfies(xs[1..], p);
    }
  }

  /** The value of `o` as a list of zero or one elements. */
  function Emit<U>(o: Option<U>): seq<U> {
    if o.Some? then [o.value] else []
  }

  /** The defined results of `f`, in the order of `xs`. */
  function Collect<T, U>(xs: seq<T>, f: T -> Option<U>): seq<U> {
    if |xs| == 0 then [] else Emit(f(xs[0])) + Collect(xs[1..], f)
  }

  lemma {:induction false} CollectAppend<T, U>(a: seq<T>, b: seq<T>, f: T -> Option<U>)
    ensures Collect(a + b, f) == Collect(a, f) + Collect(b, f)
  {
    if |a| == 0 {
      assert a + b == b;
    } else {
      assert (a + b)[0] == a[0];
      assert (a + b)[1..] == a[1..] + b;
      CollectAppend(a[1..], b, f);
      var h := Emit(f(a[0]));
      calc {
        Collect(a + b, f);
        h + Collect(a[1..] + b, f);
        h + (Collect(a[1..], f) + Collect(b, f));
        (h + Collect(a[1..], f)) + Collect(b, f);
      }
    }
  }

  /** Every collected value is `f` of some element. */
  lemma {:induction false} CollectSource<T, U>(xs: seq<T>, f: T -> Option<U>, y: U) returns (i: nat)
    requires y in Collect(xs, f)
    ensures i < |xs| && f(xs[i]) == Some(y)
  {
    if f(xs[0]) == Some(y) {
      i := 0;
    } else {
      var j := CollectSource(xs[1..], f, y);
      i := j + 1;
      assert xs[i] == xs[1..][j];
    }
  }

  /** Every defined `f` of an element is collected. */
  lemma {:induction false} CollectHit<T, U>(xs: seq<T>, f: T -> Option<U>, i: nat)
    requires i < |xs| && f(xs[i]).Some?
    ensures f(xs[i]).value in Collect(xs, f)
  {
    if i > 0 {
      assert xs[1..][i - 1] == xs[i];
      CollectHit(xs[1..], f, i - 1);
    }
  }

  /** `f` yields a value only on elements satisfying `q`, so there are at most as
      many values as such elements. */
  lemma {:induction false} CollectBound<T, U>(xs: seq<T>, f: T -> Option<U>, q: T -> bool)
    requires forall x :: f(x).Some? ==> q(x)
    ensures |Collect(xs, f)| <= |Filter(xs, q)|
  {
    if |xs| > 0 {
      CollectBound(xs[1..], f, q);
    }
  }

  /** `f(x)` for each element, one after the other. */
  function Flatten<T, U>(xs: seq<T>, f: T -> seq<U>): seq<U> {
    if |xs| == 0 then [] else f(xs[0]) + Flatten(xs[1..], f)
  }

  lemma {:induction false} FlattenAppend<T, U>(a: seq<T>, b: seq<T>, f: T -> seq<U>)
    ensures Flatten(a + b, f) == Flatten(a, f) + Flatten(b, f)
  {
    if |a| == 0 {
      assert a + b == b;
    } else {
      assert (a + b)[0] == a[0];
      assert (a + b)[1..] == a[1..] + b;
      FlattenAppend(a[1..], b, f);
      calc {
        Flatten(a + b, f);
        f(a[0]) + Flatten(a[1..] + b, f);
        f(a[0]) + (Flatten(a[1..], f) + Flatten(b, f));
        (f(a[0]) + Flatten(a[1..], f)) + Flatten(b, f);
      }
    }
  }

  lemma FlattenSingle<T, U>(x: T, f: T -> seq<U>)
    ensures Flatten([x], f) == f(x)
  {
    assert [x][1..] == [];
    assert f(x) + [] == f(x);
  }

  /** The part `f(xs[i])` sits between the parts of the elements before and after. */
  lemma FlattenSplit<T, U>(xs: seq<T>, f: T -> seq<U>, i: nat)
    requires i < |xs|
    ensures Flatten(xs, f) == Flatten(xs[..i], f) + f(xs[i]) + Flatten(xs[i + 1..], f)
  {
    assert xs == xs[..i] + xs[i..];
    FlattenAppend(xs[..i], xs[i..], f);
    assert xs[i..][0] == xs[i];
    assert xs[i..][1..] == xs[i + 1..];
  }

  /** Extending the list by one element appends that element's part. */
  lemma FlattenSnoc<T, U>(xs: seq<T>, x: T, f: T -> seq<U>)
    ensures Flatten(xs + [x], f) == Flatten(xs, f) + f(x)
  {
    FlattenAppend(xs, [x], f);
    FlattenSingle(x, f);
  }

  lemma FlattenPair<T, U>(x: T, y: T, f: T -> seq<U>)
    ensures Flatten([x, y], f) == f(x) + f(y)
  {
    assert [x, y] == [x] + [y];
    FlattenSnoc([x], y, f);
    FlattenSingle(x, f);
  }

  /* ---------------------------------------------------------------- slices */

  /** A part put between two others is found again at the length of the first. */
  lemma InfixAt<T>(a: seq<T>, x: seq<T>, b: seq<T>)
    ensures (a + x + b)[|a|..|a| + |x|] == x
  {
  }

  /** The three operands of a concatenation are found again at their offsets. */
  lemma ThreeParts<T>(a: seq<T>, x: seq<T>, r: seq<T>)
    ensures var s := a + x + r;
            s[..|a|] == a && s[|a|..|a| + |x|] == x && s[|a| + |x|..] == r
  {
  }

  /** A slice of the right operand is found again, shifted by the left operand. */
  lemma SliceRight<T>(l: seq<T>, r: seq<T>, i: nat, j: nat)
    requires i <= j <= |r|
    ensures (l + r)[|l| + i..|l| + j] == r[i..j]
  {
  }

  /** Three values set between four fixed parts, each found again at the summed
      lengths of what precedes it. */
  lemma ThreeInfixes<T>(a: seq<T>, x: seq<T>, b: seq<T>, y: seq<T>, c: seq<T>, z: seq<T>, d: seq<T>)
    ensures var s, i, j := a + x + (b + y + (c + z + d)), |a| + |x| + |b|, |a| + |x| + |b| + |y| + |c|;
            a <= s && s[|a|..|a| + |x|] == x && s[i..i + |y|] == y && s[j..j + |z|] == z
  {
    var right, last := b + y + (c + z + d), c + z + d;
    InfixAt(a, x, right);
    InfixAt(b, y, last);
    SliceRight(a + x, right, |b|, |b| + |y|);
    InfixAt(c, z, d);
    SliceRight(b + y, last, |c|, |c| + |z|);
    SliceRight(a + x, right, |b| + |y| + |c|, |b| + |y| + |c| + |z|);
  }
}

=== FILE: text.dfy ===
/** The handful of Python `str` operations the two scripts rely on, written out over
    `string` (a sequence of Unicode scalar values):
    - `sub in s`            — Contains
    - `s.split(sep)`        — Split, for a one-character separator
    - `s.splitlines()`      — SplitLines
    - `s.strip()`           — Strip
 */
module Text {

  datatype Option<+T> = None | Some(value: T)

  /** The characters for which Python's `str.isspace` holds; `str.strip()` with no
      argument removes exactly these from both ends. */
  const Whitespace: set<char> := {
    '\t', '\n', '\U{0B}', '\U{0C}', '\r', '\U{1C}', '\U{1D}', '\U{1E}', '\U{1F}', ' ',
    '\U{85}', '\U{A0}', '\U{1680}',
    '\U{2000}', '\U{2001}', '\U{2002}', '\U{2003}', '\U{2004}', '\U{2005}',
    '\U{2006}', '\U{2007}', '\U{2008}', '\U{2009}', '\U{200A}',
    '\U{2028}', '\U{2029}', '\U{202F}', '\U{205F}', '\U{3000}'
  }

  /** The characters `str.splitlines()` treats as line boundaries ("\r\n" counts as one). */
  const LineBreaks: set<char> := {
    '\n', '\r', '\U{0B}', '\U{0C}', '\U{1C}', '\U{1D}', '\U{1E}', '\U{85}', '\U{2028}', '\U{2029}'
  }

  predicate IsSpace(c: char) { c in Whitespace }

  predicate IsLineBreak(c: char) { c in LineBreaks }

  /* ---------------------------------------------------------------- `in` */

  ghost predicate OccursAt(s: string, sub: string, i: int) {
    0 <= i && i + |sub| <= |s| && s[i..i + |sub|] == sub
  }

  /** Python's `sub in s`. */
  predicate Contains(s: string, sub: string)
    ensures Contains(s, sub) ==> |sub| <= |s|
    decreases |s|
  {
    sub <= s || (|s| > 0 && Contains(s[1..], sub))
  }

  /** `Contains` holds exactly when `sub` occurs at some position of `s`. */
  lemma {:induction false} ContainsIff(s: string, sub: string)
    ensures Contains(s, sub) <==> exists i :: OccursAt(s, sub, i)
    decreases |s|
  {
    if sub <= s {
      assert OccursAt(s, sub, 0);
    } else if |s| == 0 {
      forall i | OccursAt(s, sub, i) ensures false {
      }
    } else {
      ContainsIff(s[1..], sub);
      if exists i :: OccursAt(s[1..], sub, i) {
        var i :| OccursAt(s[1..], sub, i);
        assert 0 <= i && i + 1 + |sub| <= |s|;
        assert s[1..][i..i + |sub|] == s[i + 1..i + 1 + |sub|];
        assert OccursAt(s, sub, i + 1);
      }
      if exists i :: OccursAt(s, sub, i) {
        var i :| OccursAt(s, sub, i);
        if i == 0 {
          assert false;
        }
        assert s[1..][i - 1..i - 1 + |sub|] == s[i..i + |sub|];
        assert OccursAt(s[1..], sub, i - 1);
      }
    }
  }

  /** A substring of a line is also a substring of anything that line is part of. */
  lemma ContainsInfix(a: string, b: string, c: string, sub: string)
    requires Contains(b, sub)
    ensures Contains(a + b + c, sub)
  {
    ContainsIff(b, sub);
    var i :| OccursAt(b, sub, i);
    assert (a + b + c)[|a| + i..|a| + i + |sub|] == b[i..i + |sub|];
    assert OccursAt(a + b + c, sub, |a| + i);
    ContainsIff(a + b + c, sub);
  }

  /** Appending text keeps a substring. */
  lemma ContainsExtended(s: string, t: string, sub: string)
    requires Contains(s, sub)
    ensures Contains(s + t, sub)
  {
    ContainsInfix([], s, t, sub);
    assert [] + s + t == s + t;
  }

  /** A text lacking the first character of `sub` does not contain `sub`. */
  lemma ContainsFirstChar(s: string, sub: string)
    requires |sub| > 0 && sub[0] !in s
    ensures !Contains(s, sub)
  {
    ContainsIff(s, sub);
  }

  /* ---------------------------------------------------------------- counting */

  /** Number of occurrences of `c` in `s`. */
  function Count(s: string, c: char): nat {
    if |s| == 0 then 0 else (if s[0] == c then 1 else 0) + Count(s[1..], c)
  }

  lemma {:induction false} CountAppend(a: string, b: string, c: char)
    ensures Count(a + b, c) == Count(a, c) + Count(b, c)
  {
    if |a| == 0 {
      assert a + b == b;
    } else {
      assert (a + b)[1..] == a[1..] + b;
      CountAppend(a[1..], b, c);
    }
  }

  /** `s` with every occurrence of `c` removed. */
  function Without(s: string, c: char): string {
    if |s| == 0 then [] else (if s[0] == c then [] else [s[0]]) + Without(s[1..], c)
  }

  /* ---------------------------------------------------------------- split(sep) */

  /** Index of the first `c` in `s`, or `|s|` when there is none. */
  function IndexOf(s: string, c: char): (i: nat)
    ensures i <= |s|
    ensures i < |s| ==> s[i] == c
    ensures forall k :: 0 <= k < i ==> s[k] != c
  {
    if |s| == 0 || s[0] == c then 0 else 1 + IndexOf(s[1..], c)
  }

  /** Index of the last `c` in `s`, or -1 when there is none. */
  function LastIndexOf(s: string, c: char): (i: int)
    ensures -1 <= i < |s|
    ensures i >= 0 ==> s[i] == c
    ensures forall k :: i < k < |s| ==> s[k] != c
  {
    if |s| == 0 then -1
    else if s[|s| - 1] == c then |s| - 1
    else LastIndexOf(s[..|s| - 1], c)
  }

  /** Any position holding `c` with no `c` after it is the last one. */
  lemma LastIndexOfUnique(s: string, c: char, j: int)
    requires -1 <= j < |s| && (j >= 0 ==> s[j] == c)
    requires forall k :: j < k < |s| ==> s[k] != c
    ensures LastIndexOf(s, c) == j
  {
  }

  /** The first `c` of `s + t` is where `t` starts, when `s` has none and `t` is empty
      or starts with one. */
  lemma {:induction false} IndexOfAfter(s: string, t: string, c: char)
    requires c !in s && (t == [] || t[0] == c)
    ensures IndexOf(s + t, c) == |s|
  {
    if |s| == 0 {
      assert s + t == t;
    } else {
      assert (s + t)[0] == s[0];
      assert (s + t)[1..] == s[1..] + t;
      IndexOfAfter(s[1..], t, c);
    }
  }

  /** Python's `s.split(sep)` for a one-character separator: the maximal pieces
      between separators, always at least one. */
  function Split(s: string, sep: char): (parts: seq<string>)
    ensures |parts| == Count(s, sep) + 1
    ensures forall k :: 0 <= k < |parts| ==> sep !in parts[k]
    decreases |s|
  {
    var i := IndexOf(s, sep);
    if i == |s| then
      assert Count(s, sep) == 0 by { CountAbsent(s, sep); }
      [s]
    else
      assert s == s[..i] + s[i..];
      CountAppend(s[..i], s[i..], sep);
      CountAbsent(s[..i], sep);
      assert s[i..][1..] == s[i + 1..];
      [s[..i]] + Split(s[i + 1..], sep)
  }

  lemma {:induction false} CountAbsent(s: string, c: char)
    requires c !in s
    ensures Count(s, c) == 0
  {
    if |s| > 0 {
      CountAbsent(s[1..], c);
    }
  }

  /** Python's `sep.join(parts)`. */
  function Join(parts: seq<string>, sep: char): string {
    if |parts| == 0 then []
    else if |parts| == 1 then parts[0]
    else parts[0] + [sep] + Join(parts[1..], sep)
  }

  /** Joining the pieces back with the separator gives the original text. */
  lemma {:induction false} JoinSplit(s: string, sep: char)
    ensures Join(Split(s, sep), sep) == s
    decreases |s|
  {
    var i := IndexOf(s, sep);
    if i < |s| {
      var head, rest := s[..i], s[i + 1..];
      assert s == head + [sep] + rest;
      JoinSplit(rest, sep);
      SplitAt(head, rest, sep);
      JoinCons(head, Split(rest, sep), sep);
    }
  }

  /** Text without the separator is a single piece. */
  lemma SplitWithoutSep(s: string, sep: char)
    requires IndexOf(s, sep) == |s|
    ensures Split(s, sep) == [s]
  {
  }

  /** A separator splits off the piece before it. */
  lemma SplitCons(s: string, sep: char)
    requires IndexOf(s, sep) < |s|
    ensures Split(s, sep) == [s[..IndexOf(s, sep)]] + Split(s[IndexOf(s, sep) + 1..], sep)
  {
  }

  /** A separator after separator-free text splits that text off. */
  lemma SplitAt(a: string, b: string, sep: char)
    requires sep !in a
    ensures Split(a + [sep] + b, sep) == [a] + Split(b, sep)
  {
    var s := a + [sep] + b;
    assert s == a + ([sep] + b);
    IndexOfAfter(a, [sep] + b, sep);
    assert s[..|a|] == a && s[|a| + 1..] == b;
    SplitCons(s, sep);
  }

  /** Joining more than one piece puts the separator after the first. */
  lemma JoinCons(p: string, rest: seq<string>, sep: char)
    requires |rest| >= 1
    ensures Join([p] + rest, sep) == p + [sep] + Join(rest, sep)
  {
    assert ([p] + rest)[1..] == rest;
  }

  /** The first piece is everything before the first separator. */
  lemma SplitHead(s: string, sep: char)
    ensures Split(s, sep)[0] == s[..IndexOf(s, sep)]
  {
  }

  /* ---------------------------------------------------------------- splitlines */

  predicate NoLineBreak(s: string) {
    forall i :: 0 <= i < |s| ==> !IsLineBreak(s[i])
  }

  lemma NoLineBreakAppend(a: string, b: string)
    requires NoLineBreak(a) && NoLineBreak(b)
    ensures NoLineBreak(a + b)
  {
    forall i | 0 <= i < |a + b| ensures !IsLineBreak((a + b)[i]) {
      if i >= |a| { assert (a + b)[i] == b[i - |a|]; }
    }
  }

  /** Index of the first line break in `s`, or `|s|` when there is none. */
  function LineEnd(s: string): (i: nat)
    ensures i <= |s|
    ensures i < |s| ==> IsLineBreak(s[i])
    ensures NoLineBreak(s[..i])
  {
    if |s| == 0 || IsLineBreak(s[0]) then 0
    else
      var j := LineEnd(s[1..]);
      assert s[..1 + j] == [s[0]] + s[1..][..j];
      1 + j
  }

  /** Python's `s.splitlines()`: the text between line breaks, "\r\n" counting as a
      single break, and no trailing empty line for text ending in a break. */
  function SplitLines(s: string): (lines: seq<string>)
    ensures |lines| <= |s|
    ensures forall k :: 0 <= k < |lines| ==> NoLineBreak(lines[k])
    decreases |s|
  {
    if |s| == 0 then []
    else
      var i := LineEnd(s);
      if i == |s| then [s]
      else
        var width := if s[i] == '\r' && i + 1 < |s| && s[i + 1] == '\n' then 2 else 1;
        [s[..i]] + SplitLines(s[i + width..])
  }

  /** A line followed by "\n" is split off as the first line. */
  lemma SplitLinesCons(line: string, rest: string)
    requires NoLineBreak(line)
    ensures SplitLines(line + "\n" + rest) == [line] + SplitLines(rest)
  {
    var s := line + "\n" + rest;
    assert IsLineBreak(s[|line|]);
    assert LineEnd(s) == |line| by {
      LineEndOfUnbroken(line, s);
    }
    assert s[..|line|] == line;
    assert s[|line| + 1..] == rest;
  }

  /** A line followed by any one break is split off as the first line: "\r\n" is
      one break, and so is a lone "\r" or any other terminator (a "\r" followed by
      "\n" is not lone, the two form one break). */
  lemma SplitLinesBreak(line: string, brk: string, rest: string)
    requires NoLineBreak(line)
    requires brk == "\r\n" || (|brk| == 1 && IsLineBreak(brk[0]))
    requires brk == "\r" ==> rest == [] || rest[0] != '\n'
    ensures SplitLines(line + brk + rest) == [line] + SplitLines(rest)
  {
    var s := line + brk + rest;
    assert s[|line|] == brk[0];
    assert LineEnd(s) == |line| by {
      LineEndOfUnbroken(line, s);
    }
    assert s[..|line|] == line;
    if brk == "\r\n" {
      assert s[|line| + 1] == '\n';
    } else if brk[0] == '\r' && rest != [] {
      assert s[|line| + 1] == rest[0];
    }
    assert s[|line| + |brk|..] == rest;
  }

  lemma {:induction false} LineEndOfUnbroken(line: string, s: string)
    requires NoLineBreak(line) && line < s && IsLineBreak(s[|line|])
    ensures LineEnd(s) == |line|
  {
    if |line| > 0 {
      assert !IsLineBreak(s[0]);
      LineEndOfUnbroken(line[1..], s[1..]);
    }
  }

  /** Text without line breaks is a single line (or none, when empty). */
  lemma SplitLinesUnbroken(s: string)
    requires NoLineBreak(s)
    ensures SplitLines(s) == if s == [] then [] else [s]
  {
    if s != [] {
      assert s[..|s|] == s;
    }
  }

  /** The lines, each followed by "\n": text as a line-oriented tool prints it. */
  function JoinLines(lines: seq<string>): string {
    if |lines| == 0 then [] else lines[0] + "\n" + JoinLines(lines[1..])
  }

  /** Splitting printed lines gives the lines back, provided none holds a break. */
  lemma {:induction false} SplitLinesJoinLines(lines: seq<string>)
    requires forall k :: 0 <= k < |lines| ==> NoLineBreak(lines[k])
    ensures SplitLines(JoinLines(lines)) == lines
  {
    if |lines| > 0 {
      SplitLinesJoinLines(lines[1..]);
      SplitLinesCons(lines[0], JoinLines(lines[1..]));
    }
  }

  /* ---------------------------------------------------------------- strip */

  /** Neither end is whitespace. */
  predicate IsStripped(s: string) {
    s == [] || (!IsSpace(s[0]) && !IsSpace(s[|s| - 1]))
  }

  predicate AllSpace(s: string) {
    forall i :: 0 <= i < |s| ==> IsSpace(s[i])
  }

  /** Python's `s.lstrip()`. */
  function TrimStart(s: string): (r: string)
    ensures |r| <= |s|
    ensures r == [] || !IsSpace(r[0])
  {
    if |s| == 0 || !IsSpace(s[0]) then s else TrimStart(s[1..])
  }

  /** `TrimStart` removes a whitespace prefix and nothing else. */
  lemma {:induction false} TrimStartSpan(s: string)
    ensures s == s[..|s| - |TrimStart(s)|] + TrimStart(s)
    ensures AllSpace(s[..|s| - |TrimStart(s)|])
  {
    if |s| > 0 && IsSpace(s[0]) {
      TrimStartSpan(s[1..]);
      var r := TrimStart(s);
      assert s[..|s| - |r|] == [s[0]] + s[1..][..|s| - 1 - |r|];
    }
  }

  /** Python's `s.rstrip()`. */
  function TrimEnd(s: string): (r: string)
    ensures |r| <= |s|
    ensures r == [] || !IsSpace(r[|r| - 1])
  {
    if |s| == 0 || !IsSpace(s[|s| - 1]) then s else TrimEnd(s[..|s| - 1])
  }

  /** `TrimEnd` removes a whitespace suffix and nothing else. */
  lemma {:induction false} TrimEndSpan(s: string)
    ensures s == TrimEnd(s) + s[|TrimEnd(s)|..]
    ensures AllSpace(s[|TrimEnd(s)|..])
  {
    if |s| > 0 && IsSpace(s[|s| - 1]) {
      var p := s[..|s| - 1];
      TrimEndSpan(p);
      var r := TrimEnd(s);
      assert s == p + [s[|s| - 1]];
      assert s[|r|..] == p[|r|..] + [s[|s| - 1]];
    }
  }

  /** Python's `s.strip()`. */
  function Strip(s: string): (r: string)
    ensures IsStripped(r) && |r| <= |s|
  {
    var t := TrimStart(s);
    var r := TrimEnd(t);
    assert r != [] ==> r[0] == t[0] by {
      TrimEndSpan(t);
    }
    r
  }

  /** `s` is `Strip(s)` padded with whitespace on both sides; `StripPadded` is the
      converse. */
  lemma StripPadding(s: string) returns (a: string, b: string)
    ensures AllSpace(a) && AllSpace(b) && s == a + Strip(s) + b
  {
    var t := TrimStart(s);
    var r := TrimEnd(t);
    TrimStartSpan(s);
    TrimEndSpan(t);
    a := s[..|s| - |t|];
    b := t[|r|..];
  }

  /** Every character of `Strip(s)` comes from `s`. */
  lemma StripSubset(s: string, c: char)
    requires c in Strip(s)
    ensures c in s
  {
    var a, b := StripPadding(s);
    var r := Strip(s);
    var k :| 0 <= k < |r| && r[k] == c;
    assert (a + r + b)[|a| + k] == c;
  }

  lemma {:induction false} TrimStartPadded(a: string, t: string)
    requires AllSpace(a) && (t == [] || !IsSpace(t[0]))
    ensures TrimStart(a + t) == t
  {
    if |a| > 0 {
      assert (a + t)[1..] == a[1..] + t;
      TrimStartPadded(a[1..], t);
    } else {
      assert a + t == t;
    }
  }

  lemma {:induction false} TrimEndPadded(t: string, b: string)
    requires AllSpace(b) && (t == [] || !IsSpace(t[|t| - 1]))
    ensures TrimEnd(t + b) == t
  {
    if |b| > 0 {
      assert (t + b)[..|t + b| - 1] == t + b[..|b| - 1];
      TrimEndPadded(t, b[..|b| - 1]);
    } else {
      assert t + b == t;
    }
  }

  /** Padding a stripped text with whitespace and stripping it again gives the text back. */
  lemma StripPadded(a: string, t: string, b: string)
    requires AllSpace(a) && AllSpace(b) && IsStripped(t)
    ensures Strip(a + t + b) == t
  {
    assert a + t + b == a + (t + b);
    if t == [] {
      assert a + (t + b) == (a + b) + [];
      TrimStartPadded(a + b, []);
    } else {
      TrimStartPadded(a, t + b);
      TrimEndPadded(t, b);
    }
  }

  /** Stripping is idempotent. */
  lemma StripIdempotent(s: string)
    ensures Strip(Strip(s)) == Strip(s)
  {
    StripPadded([], Strip(s), []);
    assert [] + Strip(s) + [] == Strip(s);
  }

  /** A text strips to nothing exactly when it is all whitespace. */
  lemma StripEmptyIff(s: string)
    ensures Strip(s) == [] <==> AllSpace(s)
  {
    if AllSpace(s) {
      StripPadded(s, [], []);
      assert s + [] + [] == s;
    }
    if Strip(s) == [] {
      var a, b := StripPadding(s);
      assert s == a + b;
      forall k | 0 <= k < |s| ensures IsSpace(s[k]) {
        if k < |a| { assert s[k] == a[k]; } else { assert s[k] == b[k - |a|]; }
      }
    }
  }
}
